=== FILE: README.md ===
# Respekt weekly scraper — a Dafny model of its pure core

`scraper.py` downloads every article of the Czech weekly *Respekt* and saves
each as a JSON file. Around the network and HTML plumbing it does a small
amount of exact text and sequence work, and this project models that work and
proves properties of it:

- **Header parsing** (`process_headers`). A copied `curl … -H 'Name: value'`
  command is split at every `-H`. Each chunk is stripped of whitespace and
  then of single quotes. It is cut at its first colon into an untrimmed name
  and a trimmed value. The pairs go into a dictionary where the last value
  wins, and `Accept-Encoding` is dropped.
- **Issue enumeration** (`collect_article_uris`). A year-major list of
  (year, issue 1..59) coordinates is built and sliced with
  `[skip_issues-1:]`. Each coordinate becomes an index URL
  `base/tydenik/{year}/{issue}`.
- **URL extraction** (`get_articles_uris`). The regex
  `/tydenik/\d*/\d*/[^"]*` is run over a page as a left-to-right scanner.
  One pass of `&quot;` removal follows. Each match is joined to the base as
  `base.rstrip('/') + '/' + uri.lstrip('/')`. Denylisted URLs are then
  filtered out.
- **Article classification** (`get_article`). A page whose three selected
  fields are all empty raises `EmptyArticleException`. A page that could not
  be fetched or parsed gives `None`. Otherwise the result is an `Article`
  whose link is the requested URL.
- **Saving** (`save_article`). The file name is the first match of
  `tydenik/(\d*)/(\d*)/([^?]*)` in the link, its groups joined with `-`,
  plus `.json`. The record is written under that name and replaces any
  earlier file with the same name. A name that holds a `/` (a slug such as
  `slug/`) points into a sub-directory that does not exist, and a name that
  holds a NUL character is refused by `open`; in both cases the write fails.
- **The driving loop** (`scrape_articles`). `Scraper.Scrape` is the loop as
  written. `Scraper.ScrapeSkipping` is the corrected loop that skips an
  article whose fetch failed (see "Findings"). `Scraper.ScrapeArticles` runs
  the whole scrape with the corrected loop, and
  `Scraper.ScrapeArticlesAsWritten` runs it with the loop as written.

Python's string built-ins are modelled in `pytext.dfy`: `split`, `join`,
`replace`, `strip`, `lstrip`, `rstrip`, `str.index`, `str(int)` and
`isspace`. Each is modelled with the results CPython gives it. Both regular expressions are modelled as explicit scanners in
`pathpattern.dfy`. Because `\d*` is always followed by `/`, neither regex
ever needs to backtrack.

The modules are:

| file | module | contents |
|---|---|---|
| `wrappers.dfy` | `Wrappers` | `Option`, `Result` |
| `pytext.dfy` | `PyText` | the `str` built-ins above |
| `headers.dfy` | `Headers`, `CurlRoundTrip` | `process_headers`, and its round trip against a rendered command line |
| `pathpattern.dfy` | `Patterns` | `re.findall` and `re.search` for the two path patterns |
| `collect.dfy` | `Collect` | coordinates, index URLs, extraction, denylist, gathering |
| `articles.dfy` | `Articles` | `parse_article`, `get_article`, article id, file name, `save_article` |
| `scraper.dfy` | `Scraper` | `scrape_articles`, and the composition of extraction with saving |

Downloads are parameters: index pages are a function from URL to page text,
and article pages are a function from URL to `Option<Selection>`, so a URL
that is collected twice is answered the same way both times.
`Selection` holds the three texts that the CSS selectors pick out, and
`None` means the request or the parsing raised. The articles directory is a
map from file name to record.

Where the code and its documentation disagree, the model follows the code:

- **Skip offset.** A skip offset of 0 or less goes through Python's
  negative slice start. It is not ruled out by a precondition.
  `Collect.CoordinatesZero` shows that `skip_issues = 0` visits only the
  last issue of the last year.
- **`&quot;` removal.** It is a single pass, so an entity can survive
  (`Replace("&&quot;quot;", …) == "&quot;"`). Because the removal also
  reaches into the slug, the file name of an extracted URL has `&quot;`
  removed from its slug. `Scraper.ArticleUrlFileName` states the exact
  result.
- **Failed fetch.** The loop in `scrape_articles` hands a `None` from a
  failed fetch to `save_article`, which then raises. It does not skip the
  article. See "Findings".

## Model

| member | source | states |
|---|---|---|
| PyText.LStrip | scraper.py:62 | `lstrip`: the result is a suffix of the input that does not start with a stripped character |
| PyText.LStripDrops | scraper.py:62 | every character `lstrip` removes is one of the stripped characters |
| PyText.RStrip | scraper.py:62 | `rstrip`: the result is a prefix of the input that does not end with a stripped character |
| PyText.RStripDrops | scraper.py:62 | every character `rstrip` removes is one of the stripped characters |
| PyText.Strip | scraper.py:39 | `strip`: neither end of the result is a stripped character |
| PyText.StripRemovesOnly | scraper.py:39 | `strip` returns a contiguous slice of its input, and everything cut off on either side is strippable |
| PyText.StripKeeps | scraper.py:39 | a string whose ends are not strippable comes back unchanged |
| PyText.LStripPrefix | scraper.py:39 | strippable padding before a non-strippable string is removed exactly |
| PyText.RStripSuffix | scraper.py:39 | strippable padding after a non-strippable string is removed exactly |
| PyText.Split | scraper.py:39 | `split` always yields at least one part |
| PyText.SplitPartsLackSep | scraper.py:39 | no part of a `split` contains the separator, and the first part is a prefix of the text; with `PyText.JoinSplit` this fixes the parts |
| PyText.JoinSplit | scraper.py:39 | joining the parts of a `split` with the separator gives back the original text |
| PyText.Join | scraper.py:123 | `sep.join(parts)`: the parts in order with the separator between neighbours; its meaning is stated by `PyText.JoinSplit` and `Articles.IdOfShape` |
| PyText.Replace | scraper.py:61 | `replace`: one left-to-right pass over non-overlapping occurrences; its meaning is stated by the `Replace*` lemmas below |
| PyText.ReplaceIsSplitJoin | scraper.py:61 | `replace` is `split` on the pattern followed by `join` with the replacement: non-overlapping occurrences, left to right |
| PyText.ReplaceChars | scraper.py:61 | every character of a `replace` result comes from the input or from the replacement |
| PyText.DeleteKeepsAbsent | scraper.py:61 | deleting a pattern cannot introduce a character that was not there |
| PyText.ReplaceAfterPrefix | scraper.py:61 | a prefix without the pattern's first character passes through `replace` untouched |
| PyText.ReplaceAbsent | scraper.py:61 | a text without the pattern is unchanged |
| PyText.ReplaceCharPointwise | scraper.py:66 | replacing one character by another maps the text character by character and keeps its length |
| PyText.ReplaceSinglePass | scraper.py:61 | one pass of `&quot;` removal turns `&&quot;quot;` into `&quot;`, so the entity can survive |
| PyText.FirstIndex | scraper.py:40 | `index(':')`: absent exactly when the character is missing, otherwise the position of its first occurrence |
| PyText.NatToString | scraper.py:101 | `str` of a natural number: non-empty decimal digits, with no leading zero except for 0 itself |
| PyText.ParseNatToString | scraper.py:101 | reading the decimal digits back gives the number |
| PyText.IntToString | scraper.py:101 | `str(int)`: non-empty, and all digits exactly when the number is not negative |
| PyText.NegativeTail | scraper.py:101 | a negative number is rendered as `-` followed by its magnitude |
| PyText.IntToStringInjective | scraper.py:101 | different integers render differently |
| PyText.NatToStringInjective | scraper.py:101 | different natural numbers render differently |
| Headers.Dict | scraper.py:42 | `dict(pairs)`: the key of the last pair is present |
| Headers.DictSpec | scraper.py:42 | `dict(pairs)`: a key is present exactly when some pair names it, with the value of its last occurrence |
| Headers.HeaderLines | scraper.py:39 | one line per `-H`, the text before the first `-H` being dropped; no line starts or ends with a single quote |
| Headers.ParsePair | scraper.py:40-41 | the cut of one line is missing exactly when the line has no colon |
| Headers.ParsePairSplits | scraper.py:40-41 | the name is the untrimmed text before the first colon, and the value is the rest, trimmed |
| Headers.ParsePairs | scraper.py:40-41 | on success there is one pair per line |
| Headers.ParsePairsSucceeds | scraper.py:40 | parsing succeeds exactly when every line has a colon |
| Headers.ParsePairsAt | scraper.py:41 | the i-th pair is the cut of the i-th line |
| Headers.ParsePairsFailure | scraper.py:40 | a failure names a line of the input that has no colon |
| Headers.HeadersOfLines | scraper.py:41-45 | the result never holds `Accept-Encoding`, and it fails exactly when some line has no colon |
| Headers.ProcessHeaders | scraper.py:38-45 | `process_headers`: never returns `Accept-Encoding`, and fails exactly when some chunk after a `-H` has no colon |
| Headers.DictKeys | scraper.py:42 | a name is a key exactly when some line carries it |
| Headers.DictLast | scraper.py:42 | a name carried by no later line maps to the value of its line |
| Headers.HeaderKeys | scraper.py:41-44 | a name is a header exactly when it is not `Accept-Encoding` and some line carries it |
| Headers.HeaderValueIsLast | scraper.py:42-44 | every kept header has the value of its last line |
| Headers.SplitWithoutFlag | scraper.py:39 | a text without `-H` splits into itself alone |
| Headers.SplitAfterPreamble | scraper.py:39 | the text before the first `-H` becomes the dropped first part |
| Headers.PreambleIgnored | scraper.py:39 | `curl` and everything else before the first `-H` do not affect the result |
| CurlRoundTrip.NoFlagConcat | scraper.py:39 | gluing two `-H`-free texts creates a `-H` only across a `-` and `H` seam |
| CurlRoundTrip.ChunkHasNoFlag | scraper.py:39 | a quoted header line with `-H`-free name and value contains no `-H` |
| CurlRoundTrip.SplitChunks | scraper.py:39 | a rendered list of flags splits into one chunk per header |
| CurlRoundTrip.SplitFlags | scraper.py:39 | splitting a rendered command gives an empty preamble and then one chunk per header |
| CurlRoundTrip.ChunkStrips | scraper.py:39 | stripping whitespace and then quotes from a chunk gives back `Name: value` |
| CurlRoundTrip.LinesOfFlags | scraper.py:39 | the header lines of a rendered command are exactly its `Name: value` lines |
| CurlRoundTrip.ParseLine | scraper.py:40-41 | `Name: value` is cut back into the name and the value |
| CurlRoundTrip.ParseLines | scraper.py:40-41 | the rendered lines parse back into the original pairs |
| CurlRoundTrip.ProcessRenderedHeaders | scraper.py:38-45 | round trip: a command rendered from header pairs gives `dict(pairs)` without `Accept-Encoding` |
| CurlRoundTrip.ThreeFlags | scraper.py:42-44 | a middle `Accept-Encoding` flag between two other headers is the only one dropped |
| CurlRoundTrip.OneFlag | scraper.py:38-45 | a single header flag gives a one-entry map |
| CurlRoundTrip.DictThree | scraper.py:42 | three pairs with distinct names give the three-entry map |
| CurlRoundTrip.ExampleCommand | scraper.py:38-45 | the rendered command `-H 'Cookie: a=b' -H 'Accept-Encoding: gzip' -H 'User-Agent: x' `, each flag followed by one space, gives `{Cookie: a=b, User-Agent: x}` |
| CurlRoundTrip.LowerCaseEncodingKept | scraper.py:43-44 | the match is exact-case: `accept-encoding` survives |
| Patterns.DigitRunSpec | scraper.py:59 | greedy `\d*`: all digits, stopping at the end or at a non-digit |
| Patterns.DigitRunOf | scraper.py:59 | `\d*` over digits followed by a non-digit takes exactly those digits |
| Patterns.StopRunSpec | scraper.py:59 | greedy `[^"]*`: no stop character, stopping at the end or at the stop character |
| Patterns.StopRunOf | scraper.py:59 | `[^"]*` over stop-free text followed by the stop character takes exactly that text |
| Patterns.DigitsSlashSound | scraper.py:59 | a digit group followed by `/` is a digit run and a slash |
| Patterns.DigitsSlashOf | scraper.py:59 | digits followed by `/` are read as that group |
| Patterns.MatchTailSound | scraper.py:59 | a path match spans `year/issue/slug` with digit groups and a stop-free slug, ending at the end or at the stop character |
| Patterns.MatchTailOf | scraper.py:59 | a well-formed path followed by the end or by the stop character is matched exactly |
| Patterns.MatchAtSound | scraper.py:59 | an anchored match is the literal followed by a well-formed path, maximal up to the stop character |
| Patterns.MatchAtOf | scraper.py:59 | the literal followed by a well-formed path and a stop is matched with exactly those groups |
| Patterns.MatchAtMiss | scraper.py:59-60 | no match starts at a character other than the literal's first |
| Patterns.FindAll | scraper.py:59-60 | `re.findall` for a path pattern: try every position left to right and resume behind each match; its meaning is stated by the `FindAll*` lemmas below |
| Patterns.FindAllWellFormed | scraper.py:60 | every `findall` match has digit groups and a stop-free slug |
| Patterns.FindAllSkip | scraper.py:60 | text without the literal's first character contributes no match |
| Patterns.FindAllTake | scraper.py:60 | a match is taken and scanning resumes after it, so matches do not overlap |
| Patterns.FindAllAbsent | scraper.py:60 | a page without `/tydenik/` has no match |
| Patterns.FindAllListing | scraper.py:59-60 | a page built from paths separated by junk text yields exactly those paths, in order |
| Patterns.ListingStep | scraper.py:60 | junk, then a path, then a stop contributes exactly that path |
| Patterns.FirstMatch | scraper.py:123 | the leftmost match of a path pattern; `Patterns.FirstMatchIsFirst` shows it is `findall(...)[0]` |
| Patterns.FirstMatchIsFirst | scraper.py:123 | `findall(...)[0]`: there is a first match exactly when `findall` is non-empty, and it is the first element |
| Patterns.FirstMatchOf | scraper.py:123 | a link that starts with a well-formed path has that path as its first match |
| Patterns.FirstMatchSkip | scraper.py:123 | a prefix without the literal's second character does not change the first match, provided the text after it does not start with that character |
| Patterns.FirstMatchExtend | scraper.py:123 | text appended after a stop character does not change the first match |
| Collect.AllCoords | scraper.py:100 | the year-major list comprehension; its content is stated by the `AllCoords*` lemmas below |
| Collect.YearCoords | scraper.py:100 | every year contributes 59 coordinates |
| Collect.AllCoordsLength | scraper.py:100 | the full list has 59·(year_to−year_from+1) coordinates, or none for an empty range |
| Collect.AllCoordsAt | scraper.py:100 | the k-th coordinate is (year_from + k div 59, k mod 59 + 1) |
| Collect.AllCoordsBounds | scraper.py:100 | every coordinate lies in the year range and has an issue in 1..59 |
| Collect.AllCoordsAscending | scraper.py:100 | the full list is strictly ascending year-major |
| Collect.PySliceFrom | scraper.py:100 | Python `s[k:]`: a suffix of `s`, of length `|s|-k` for `0 <= k <= |s|`, empty for `k > |s|`, and the last `min(|s|, -k)` elements for negative `k` |
| Collect.Coordinates | scraper.py:100 | the coordinates visited are always a suffix of the full year-major list |
| Collect.CoordinatesResume | scraper.py:100 | a skip of k ≥ 1 visits exactly the full list from its k-th element (1-based) |
| Collect.CoordinatesZero | scraper.py:100 | a skip of 0 visits only the last issue of the last year |
| Collect.IndexUrl | scraper.py:89 | every index URL starts with `base/tydenik/` |
| Collect.IndexUrlShape | scraper.py:101 | the index URL is `base/tydenik/` followed by `str(year)/str(issue)` |
| Collect.IntStringHasNoSlash | scraper.py:101 | `str(int)` never contains `/` |
| Collect.IndexUrlInjective | scraper.py:101 | different coordinates have different index URLs |
| Collect.SafeUri | scraper.py:61 | `&quot;` removal leaves the leading `/tydenik/` of a match in place |
| Collect.JoinUrl | scraper.py:62 | the stripped base and the path meet at exactly one `/`: the base does not end with one and the path does not start with one |
| Collect.ExtractUrls | scraper.py:60-62 | one URL per regex match |
| Collect.ExtractedUrl | scraper.py:61-62 | the joined URL of a match is the stripped base, `/tydenik/`, and the path with `&quot;` removed |
| Collect.ExtractUrlsAt | scraper.py:60-62 | the i-th URL is built from the i-th match |
| Collect.ExtractUrlsPrefix | scraper.py:62 | every URL starts with the stripped base followed by `/tydenik/` |
| Collect.CleanPathHasNoQuote | scraper.py:59-61 | a cleaned path contains no `"` |
| Collect.ExtractUrlsNoQuote | scraper.py:59-62 | for a base without `"`, no extracted URL contains `"` |
| Collect.ExtractUrlsNone | scraper.py:60 | a page without `/tydenik/` gives no URLs |
| Collect.ExtractUrlsListing | scraper.py:59-62 | a page listing paths gives their article URLs in page order, duplicates kept |
| Collect.Keep | scraper.py:105-107 | the filter never lengthens the list; `Collect.KeepMembership` and `Collect.KeepCounts` state what it keeps |
| Collect.KeepMembership | scraper.py:105-107 | a URL survives exactly when it was extracted and is not denylisted |
| Collect.KeepCounts | scraper.py:105-107 | a surviving URL is kept as many times as it occurs |
| Collect.KeepConcat | scraper.py:105-107 | filtering a concatenation filters each part |
| Collect.Gather | scraper.py:100-107 | the loop of `collect_article_uris` over given coordinates; `Collect.GatherMembership` and `Collect.GatherIsKeepFlat` state what it yields |
| Collect.CollectUrls | scraper.py:86-107 | `collect_article_uris`; `Collect.CollectAvoidsDenylist`, `Collect.CollectResume` and `Scraper.CollectedUrlsNamed` state what it yields |
| Collect.GatherIsKeepFlat | scraper.py:100-107 | the result is the filter applied to every page's URLs in coordinate order and then page order |
| Collect.GatherConcat | scraper.py:100-107 | two runs of coordinates yield the first run's URLs followed by the second's |
| Collect.GatherSplit | scraper.py:100-107 | visiting a list is visiting its first n coordinates and then the rest |
| Collect.GatherMembership | scraper.py:100-107 | a URL is yielded exactly when some visited page produced it and it is not denylisted |
| Collect.CollectAvoidsDenylist | scraper.py:91-107 | no denylisted URL is ever yielded |
| Collect.CollectResume | scraper.py:100-107 | resuming at issue k yields exactly what a full run yields after the URLs of the first k−1 issues |
| Articles.ParseArticle | scraper.py:66-69 | the text keeps its length, and the date and authorship are passed through unchanged |
| Articles.ParseArticleText | scraper.py:66 | every no-break space of the text becomes a space, and nothing else changes |
| Articles.ParseArticleNoBreakFree | scraper.py:66 | the parsed text holds no no-break space |
| Articles.GetArticle | scraper.py:73-84 | no article exactly when the fetch failed, an empty-article error exactly when all three fields are empty, and otherwise an article linked to the requested URL |
| Articles.GetArticleFields | scraper.py:76-80 | a returned article holds the parsed fields unchanged |
| Articles.IdOfShape | scraper.py:123 | the id is the year, issue and slug with a `-` between each |
| Articles.ArticleId | scraper.py:123 | the id of a link, `None` standing for the IndexError of an empty match list; `Articles.FileNameDefined` states when that happens |
| Articles.FileName | scraper.py:123-124 | the file name of a link; `Articles.FileNameOfFirst` states its shape |
| Articles.FileNameDefined | scraper.py:123 | a link has a file name exactly when the id pattern matches it somewhere |
| Articles.FileNameOfFirst | scraper.py:123-124 | the file name is `year-issue-slug.json` of the first match |
| Articles.FirstMatchWellFormed | scraper.py:123 | the id's year and issue are digits, and its slug has no `?` |
| Articles.FileNameIgnoresQuery | scraper.py:123-124 | links that differ only in a `?query` suffix get the same file name |
| Articles.FileNameInjective | scraper.py:123-124 | two links get the same file name only when their first matches agree |
| Articles.FileNameOfLink | scraper.py:123-124 | behind a prefix without `y`, the link `tydenik/Y/I/S` is saved as `Y-I-S.json` |
| Articles.FileNameExample | scraper.py:123-124 | `https://example.org/tydenik/2019/5/some-slug` is saved as `2019-5-some-slug.json` |
| Articles.RecordOf | scraper.py:129-134 | the record has exactly the keys `link`, `text`, `authorship` and `date_text` |
| Articles.RecordRoundTrip | scraper.py:129-135 | reading a saved record back gives the article |
| Articles.SaveArticle | scraper.py:122-135 | saving fails exactly when the link has no id match or its file name holds a `/` or a NUL character (a NUL is reported first, as `open` rejects it before touching the file system), and otherwise adds exactly the article's file name to the directory |
| Articles.SaveArticleFrame | scraper.py:126-135 | saving writes the record under its file name and leaves every other file alone |
| Articles.SaveArticleIdempotent | scraper.py:126-135 | saving the same article twice leaves what saving it once leaves |
| Articles.SaveArticleQueryOverwrites | scraper.py:123-135 | saving a link with a query after the bare link replaces the earlier file |
| Scraper.Step | scraper.py:116-119 | one turn as written: a failed fetch always ends the run in `save_article`, and a completed turn removes no file |
| Scraper.Scrape | scraper.py:116-119 | the loop as written: a completed run removes no file |
| Scraper.ScrapeSkipping | scraper.py:116-119 | the corrected loop, which skips a failed fetch: a completed run removes no file |
| Scraper.ScrapeArticlesAsWritten | scraper.py:110-119 | `scrape_articles` end to end with the loop as written: a completed run removes no file |
| Scraper.ScrapeArticles | scraper.py:110-119 | `scrape_articles` end to end with the corrected loop of lines 116-119: a completed run removes no file |
| Scraper.ScrapeAbortsOnNone | scraper.py:116-119 | as written, one article whose fetch fails aborts the whole scrape |
| Scraper.NoneCounterexample | scraper.py:118-119 | as written, a single failed fetch crashes in `save_article`, while the corrected loop saves nothing and completes |
| Scraper.StepSkipping | scraper.py:116-119 | corrected turn: a failed fetch leaves the directory as it was |
| Scraper.SkippingAgrees | scraper.py:116-119 | when every fetch succeeds, the corrected loop and the loop as written agree |
| Scraper.SkippingAllFailed | scraper.py:116-119 | when every fetch fails, the corrected loop completes with the directory unchanged |
| Scraper.StepIsApply | scraper.py:118-119 | one corrected turn performs the file writes its article calls for, or fails as they do |
| Scraper.ApplyOverrides | scraper.py:126-127 | a run of file writes overrides the directory with the files the writes leave |
| Scraper.ApplyTwice | scraper.py:126-127 | performing the same writes twice leaves what performing them once leaves |
| Scraper.ScrapeSkippingIsApply | scraper.py:116-119 | the corrected loop performs exactly the writes of its URLs, and whether it fails does not depend on the directory |
| Scraper.ScrapeSkippingIdempotent | scraper.py:116-119 | re-running a completed scrape over the same URLs and pages changes nothing |
| Scraper.CleanPath | scraper.py:61 | removing `&quot;` from a path cleans only the slug |
| Scraper.BeforeQuery | scraper.py:123 | the slug group is the text before the first `?`: it holds no `?` and is the whole text or stops at a `?` |
| Scraper.ArticleUrlShape | scraper.py:62 | an article URL on the site is `https://www.respekt.cz/tydenik/` followed by the cleaned path |
| Scraper.LinkFileName | scraper.py:123-124 | behind a prefix without `y`, `tydenik/Y/I/S` is saved as `Y-I-` plus the part of `S` before its first `?`, plus `.json` |
| Scraper.ArticleUrlFileName | scraper.py:123-124 | round trip: the URL extracted for `/tydenik/Y/I/S` is saved as `Y-I-S'.json`, where `S'` is `S` with `&quot;` removed and cut at its first `?` |
| Scraper.ArticleUrlFileNamePlain | scraper.py:123-124 | for a slug with neither `?` nor `&quot;`, the extracted URL is saved as exactly `Y-I-S.json` |
| Scraper.ArticleUrlWritable | scraper.py:123-127 | saving the article of an extracted URL fails exactly when its cleaned slug, cut at the first `?`, holds a `/` or a NUL character |
| Scraper.SlugSlashUnwritable | scraper.py:123-127 | a link of the site whose slug holds a `/` but no NUL before any `?` cannot be saved: the file name names a missing sub-directory |
| Scraper.SlashSlugExample | scraper.py:123-127 | the link `https://www.respekt.cz/tydenik/2019/5/slug/` gets the name `2019-5-slug/.json` and cannot be saved |
| Scraper.SlugNulUnwritable | scraper.py:123-127 | a link of the site whose slug holds a NUL before any `?` cannot be saved: `open` refuses the name, whether or not it also holds a `/` |
| Scraper.NameChars | scraper.py:123-124 | a `/` or NUL in a file name can only come from the slug |
| Scraper.NulSlugExample | scraper.py:123-127 | the link `https://www.respekt.cz/tydenik/2019/5/a<NUL>b` gets the name `2019-5-a<NUL>b.json` and cannot be saved |
| Scraper.ExtractedUrlsNamed | scraper.py:123 | every URL extracted from an index page of the site has a file name, so saving it never fails for want of an id |
| Scraper.GatheredFrom | scraper.py:103-107 | every gathered URL is one that some index page yielded |
| Scraper.CollectedUrlsNamed | scraper.py:113 | every collected URL has a file name |
| Scraper.CollectedAllNamed | scraper.py:113 | every URL of the collected list has a file name |
| Scraper.SkippingStops | scraper.py:116-119 | over URLs that all have file names, the corrected loop stops only on an empty article or on a file name with a `/` or NUL; a name the file system rejects for its length is not modelled |
| Scraper.AsWrittenStops | scraper.py:116-119 | over URLs that all have file names, the loop as written stops only on an empty article, a failed fetch or a file name with a `/` or NUL; a name the file system rejects for its length is not modelled |
| Scraper.ScrapeArticlesStops | scraper.py:110-119 | with the corrected loop, a full scrape of the site fails only on an empty article page or a slug with a `/` or NUL, never for want of an id, for file names within the file system's length limit |
| Scraper.ScrapeArticlesAsWrittenStops | scraper.py:110-119 | as written, a full scrape of the site fails only on an empty article page, a failed fetch or a slug with a `/` or NUL, never for want of an id, for file names within the file system's length limit |

## Left out

- Network access (`requests.get`, scraper.py:58 and 75). The pages are function parameters. A failed index-page download, which the source does not catch, is not modelled: index pages always have a text.
- HTML selection with PyQuery (scraper.py:65-69). The three selected texts are an input `Selection`, and only the no-break-space replacement is modelled.
- Logging and the progress bar (scraper.py:16-35, 84, 102, 112-117, 136). These are console output only.
- Writing files (scraper.py:125-135). The directory is a map from file name to record. The `path` argument, directory creation and JSON encoding are not modelled. A file name with a `/` or a NUL character is the write failure modelled.
- Articles.SaveArticle: a file name longer than the file system allows (commonly 255 bytes of its encoding) makes `open` raise, and the model saves it anyway. This depends on the slug: a slug long enough makes `Y-I-S.json` too long. The limit belongs to the file system and the byte length to the name's encoding, and neither is modelled. Missing permissions and a full disk depend on the machine and are not modelled either.
- Collect.IndexUrl: `str.format` runs over the whole joined template, so a `{` or `}` in the base would also be substituted or raise. The model appends the base as given and so covers only brace-free bases. The one caller passes `https://www.respekt.cz`, which has neither.
- Collect.IndexUrlShape: states the shape for brace-free bases only, for the same reason as `Collect.IndexUrl`.
- The default arguments of `scrape_articles` (`year_from=1990`, `issue_from=1`, `year_to=2023`, scraper.py:110) and of `collect_article_uris` (`year_from=1990`, `skip_issues=1`, scraper.py:86). The model takes every argument explicitly, so it covers the defaults as one choice of inputs.
- The `datetime.now()` default for `year_to` (scraper.py:87-88) and the `sys.argv` entry point (scraper.py:141-145). These are ambient inputs. `scrape_articles` always passes `year_to`.
- Laziness of `collect_article_uris`. The model gathers all URLs before fetching articles. The sequence of saves is the same, because an article page is a function of its URL: a URL yielded twice gets the same answer both times, where the source fetches it twice and could get two different pages. When a run stops early, the source would not have fetched the remaining index pages, and the model does not show that difference.
- Patterns.DigitRunSpec: `\d` is read as the ASCII digits 0-9. Python also matches other Unicode decimal digits.
- Articles.GetArticle: the text of the `EmptyArticleException` message is not modelled.

## Findings

| source | as written | input that shows it | evidently intended | confidence | as-written member | corrected member |
|---|---|---|---|---|---|---|
| scraper.py:118-119 | `save_article(article)` is called even when `get_article` returned `None`, so `article.link` raises and the run ends | any collected URL whose download or parsing raises, e.g. the one-URL list `[u]` with the fetch of `u` failing | skip that article and continue with the next URL | not executed | Scraper.NoneCounterexample | Scraper.StepSkipping |

=== FILE: articles.dfy ===
/**
 * One article: the fields `parse_article` reads from a page, the
 * classification `get_article` makes of them, and what `save_article`
 * derives from an article (its id, its file name and the saved record).
 */
module Articles {
  import opened Wrappers
  import opened PyText
  import opened Patterns

  /** The `Article` named tuple. */
  datatype Article = Article(link: string, text: string, dateText: string, authorship: string)

  /** The texts of the three CSS selections on an article page: `#postcontent`, `.authorship-note` and `.authorship-names`. */
  datatype Selection = Selection(postContent: string, authorshipNote: string, authorshipNames: string)

  /** The triple `parse_article` returns. */
  datatype Parsed = Parsed(text: string, dateText: string, authorship: string)

  /** What `get_article` hands back: an article, the EmptyArticleException it re-raises, or the `None` it returns after logging any other failure. */
  datatype Fetched = Got(article: Article) | EmptyArticle | NoArticle

  /** The no-break space `parse_article` turns into a plain space. */
  const NoBreakSpace: char := '\U{00A0}'

  /** `parse_article` after the selection: the body text with no-break spaces replaced, the two authorship texts unchanged. */
  function ParseArticle(sel: Selection): (p: Parsed)
    ensures |p.text| == |sel.postContent|
    ensures p.dateText == sel.authorshipNote && p.authorship == sel.authorshipNames
  {
    ReplaceCharPointwise(sel.postContent, NoBreakSpace, ' ');
    Parsed(Replace(sel.postContent, [NoBreakSpace], " "), sel.authorshipNote, sel.authorshipNames)
  }

  /** Character by character, the body text is the selected text with each no-break space made a plain space. */
  lemma ParseArticleText(sel: Selection, i: int)
    requires 0 <= i < |sel.postContent|
    ensures ParseArticle(sel).text[i] == if sel.postContent[i] == NoBreakSpace then ' ' else sel.postContent[i]
  {
    ReplaceCharPointwise(sel.postContent, NoBreakSpace, ' ');
  }

  /** No no-break space is left in the body text. */
  lemma ParseArticleNoBreakFree(sel: Selection)
    ensures NoBreakSpace !in ParseArticle(sel).text
  {
    var t := ParseArticle(sel).text;
    forall i | 0 <= i < |t| ensures t[i] != NoBreakSpace {
      ParseArticleText(sel, i);
    }
  }

  /** The condition under which `get_article` raises EmptyArticleException. */
  predicate IsEmpty(p: Parsed) {
    p.text == "" && p.dateText == "" && p.authorship == ""
  }

  /**
   * `get_article`: `page` is the selection of the downloaded page, or `None`
   * when the download or the parsing raised.
   */
  function GetArticle(uri: string, page: Option<Selection>): (r: Fetched)
    ensures r.NoArticle? <==> page.None?
    ensures r.EmptyArticle? <==>
              page.Some? && page.value.postContent == "" && page.value.authorshipNote == "" && page.value.authorshipNames == ""
    ensures r.Got? ==> r.article.link == uri
  {
    match page
    case None => NoArticle
    case Some(sel) =>
      var p := ParseArticle(sel);
      if IsEmpty(p) then EmptyArticle else Got(Article(uri, p.text, p.dateText, p.authorship))
  }

  /** The fields of a fetched article are the parsed fields, unchanged. */
  lemma GetArticleFields(uri: string, sel: Selection)
    requires GetArticle(uri, Some(sel)).Got?
    ensures var a := GetArticle(uri, Some(sel)).article;
            Parsed(a.text, a.dateText, a.authorship) == ParseArticle(sel)
  {
  }

  // ---------------------------------------------------------------- the saved file

  /** `'-'.join(groups)`: the article id. */
  function IdOf(g: Groups): (r: string) {
    Join([g.year, g.issue, g.slug], "-")
  }

  /** The id is year, issue and slug with a dash between each. */
  lemma IdOfShape(g: Groups)
    ensures IdOf(g) == g.year + "-" + g.issue + "-" + g.slug
  {
    assert [g.year, g.issue, g.slug][1..] == [g.issue, g.slug];
    assert [g.issue, g.slug][1..] == [g.slug];
    assert [g.slug][1..] == [];
    assert JoinRest([g.slug], "-") == "-" + g.slug;
    assert JoinRest([g.issue, g.slug], "-") == "-" + g.issue + ("-" + g.slug);
  }

  /** `re.findall(r"tydenik/(\d*)/(\d*)/([^?]*)", link)[0]` joined by dashes; `None` is the IndexError of an empty match list. */
  function ArticleId(link: string): (r: Option<string>)
  {
    match FirstMatch(link, IdLit, IdStop)
    case None => None
    case Some(g) => Some(IdOf(g))
  }

  /** `f"{article_id}.json"` */
  function FileName(link: string): (r: Option<string>)
  {
    match ArticleId(link)
    case None => None
    case Some(id) => Some(id + ".json")
  }

  /** A link gets a file name exactly when the id pattern matches it somewhere. */
  lemma FileNameDefined(link: string)
    ensures FileName(link).Some? <==> FindAll(link, IdLit, IdStop) != []
  {
    FirstMatchIsFirst(link, IdLit, IdStop);
  }

  /** The file name is built from the first match of the id pattern. */
  lemma FileNameOfFirst(link: string)
    requires FindAll(link, IdLit, IdStop) != []
    ensures var g := FindAll(link, IdLit, IdStop)[0];
            FileName(link) == Some(g.year + "-" + g.issue + "-" + g.slug + ".json")
  {
    FirstMatchIsFirst(link, IdLit, IdStop);
    IdOfShape(FirstMatch(link, IdLit, IdStop).value);
  }

  /** A query string appended to a link that has an id does not change its file name. */
  lemma FileNameIgnoresQuery(link: string, query: string)
    requires FileName(link).Some?
    ensures FileName(link + "?" + query) == FileName(link)
  {
    assert !IsDigit(IdStop);
    assert IdStop !in IdLit;
    assert link + "?" + query == link + ("?" + query);
    FirstMatchExtend(link, "?" + query, IdLit, IdStop);
  }

  /** Two links share a file name only when their first id matches have the same groups. */
  lemma FileNameInjective(l1: string, l2: string)
    requires FileName(l1).Some? && FileName(l1) == FileName(l2)
    ensures FirstMatch(l1, IdLit, IdStop) == FirstMatch(l2, IdLit, IdStop)
  {
    var g1 := FirstMatch(l1, IdLit, IdStop).value;
    var g2 := FirstMatch(l2, IdLit, IdStop).value;
    FirstMatchWellFormed(l1);
    FirstMatchWellFormed(l2);
    IdOfShape(g1);
    IdOfShape(g2);
    assert IdOf(g1) + ".json" == IdOf(g2) + ".json";
    DropSuffix(IdOf(g1), IdOf(g2), ".json");
    DashSplit(g1);
    DashSplit(g2);
    CutAtFirst(g1.year, g1.issue + "-" + g1.slug, g2.year, g2.issue + "-" + g2.slug, '-');
    CutAtFirst(g1.issue, g1.slug, g2.issue, g2.slug, '-');
  }

  /** The first match of a text is well formed. */
  lemma FirstMatchWellFormed(link: string)
    requires FirstMatch(link, IdLit, IdStop).Some?
    ensures WellFormed(FirstMatch(link, IdLit, IdStop).value, IdStop)
  {
    FirstMatchIsFirst(link, IdLit, IdStop);
    FindAllWellFormed(link, IdLit, IdStop);
  }

  /** Equal texts with equal suffixes have equal beginnings. */
  lemma DropSuffix(a: string, b: string, t: string)
    requires a + t == b + t
    ensures a == b
  {
    assert (a + t)[..|a|] == a;
    assert (b + t)[..|b|] == b;
  }

  /** The id of well-formed groups, cut at its dashes; the digit runs contain none. */
  lemma DashSplit(g: Groups)
    requires AllDigits(g.year) && AllDigits(g.issue)
    ensures '-' !in g.year && '-' !in g.issue
    ensures g.year + "-" + g.issue + "-" + g.slug == g.year + ['-'] + (g.issue + ['-'] + g.slug)
  {
    assert forall i :: 0 <= i < |g.year| ==> IsDigit(g.year[i]);
    assert forall i :: 0 <= i < |g.issue| ==> IsDigit(g.issue[i]);
  }

  /** A link ending in `tydenik/<year>/<issue>/<slug>` after a prefix that cannot start the pattern is named after those groups. */
  lemma FileNameOfLink(prefix: string, g: Groups)
    requires 'y' !in prefix
    requires WellFormed(g, IdStop)
    ensures FileName(prefix + Render(IdLit, g)) == Some(g.year + "-" + g.issue + "-" + g.slug + ".json")
  {
    var m := Render(IdLit, g);
    assert m[0] == 't';
    FirstMatchSkip(prefix, m, IdLit, IdStop);
    assert m + [] == m;
    FirstMatchOf(IdLit, g, [], IdStop);
    IdOfShape(g);
  }

  /** `https://example.org/tydenik/2019/5/some-slug` is saved as `2019-5-some-slug.json`. */
  lemma FileNameExample()
    ensures FileName("https://example.org/" + Render(IdLit, Groups("2019", "5", "some-slug")))
            == Some("2019" + "-" + "5" + "-" + "some-slug" + ".json")
  {
    var g := Groups("2019", "5", "some-slug");
    assert AllDigits(g.year) && AllDigits(g.issue);
    assert IdStop !in g.slug;
    assert 'y' !in "https://example.org/";
    FileNameOfLink("https://example.org/", g);
  }

  /** The JSON object written for an article. */
  type Record = map<string, string>

  /** `article_dict`: the four fields of the article under their JSON names. */
  function RecordOf(a: Article): (r: Record)
    ensures r.Keys == {"link", "text", "authorship", "date_text"}
  {
    map["link" := a.link, "text" := a.text, "authorship" := a.authorship, "date_text" := a.dateText]
  }

  /** Reading an article back from a record written by `save_article`. */
  function ArticleOf(rec: Record): (r: Option<Article>) {
    if "link" in rec && "text" in rec && "date_text" in rec && "authorship" in rec
    then Some(Article(rec["link"], rec["text"], rec["date_text"], rec["authorship"]))
    else None
  }

  /** The saved record holds the whole article: reading it back gives the article. */
  lemma RecordRoundTrip(a: Article)
    ensures ArticleOf(RecordOf(a)) == Some(a)
  {
    var r := RecordOf(a);
    assert "link" != "text" && "link" != "authorship" && "link" != "date_text";
    assert "text" != "authorship" && "text" != "date_text" && "authorship" != "date_text";
    assert r["link"] == a.link;
    assert r["text"] == a.text;
    assert r["date_text"] == a.dateText;
    assert r["authorship"] == a.authorship;
  }

  /** The articles directory: file name to saved record. */
  type Store = map<string, Record>

  /**
   * Why `save_article` can fail on an article: no id match in its link
   * (IndexError); a file name with a NUL character, which `open` refuses
   * before it touches the file system (ValueError), so this check comes
   * first; or a file name with a `/`, which `open` reads as a sub-directory
   * of `articles` that nothing has created (FileNotFoundError).
   */
  datatype SaveError = NoId(link: string) | NoDirectory(name: string) | EmbeddedNul(name: string)

  /** A file name that `open` accepts inside the `articles` directory, as far as its characters decide. */
  predicate Openable(name: string) {
    '/' !in name && '\0' !in name
  }

  /** `save_article`: write the record under the file name derived from the link, replacing any earlier file of that name. */
  function SaveArticle(store: Store, a: Article): (r: Result<Store, SaveError>)
    ensures r.Failure? <==> FileName(a.link).None? || !Openable(FileName(a.link).value)
    ensures r.Success? ==> r.value.Keys == store.Keys + {FileName(a.link).value}
  {
    match FileName(a.link)
    case None => Failure(NoId(a.link))
    case Some(name) =>
      if '\0' in name then Failure(EmbeddedNul(name))
      else if '/' in name then Failure(NoDirectory(name))
      else Success(store[name := RecordOf(a)])
  }

  /** Saving writes the article's record under its file name and leaves every other file alone. */
  lemma SaveArticleFrame(store: Store, a: Article, name: string)
    requires SaveArticle(store, a).Success?
    ensures name == FileName(a.link).value ==> SaveArticle(store, a).value[name] == RecordOf(a)
    ensures name != FileName(a.link).value && name in store ==> SaveArticle(store, a).value[name] == store[name]
  {
  }

  /** Saving the same article twice leaves the same directory as saving it once. */
  lemma SaveArticleIdempotent(store: Store, a: Article)
    requires SaveArticle(store, a).Success?
    ensures SaveArticle(SaveArticle(store, a).value, a) == SaveArticle(store, a)
  {
    var name := FileName(a.link).value;
    var once := store[name := RecordOf(a)];
    assert once[name := RecordOf(a)] == once;
  }

  /** Two links that differ only in their query string write the same file, the later save replacing the earlier. */
  lemma SaveArticleQueryOverwrites(store: Store, a: Article, query: string, b: Article)
    requires SaveArticle(store, a).Success?
    requires b.link == a.link + "?" + query
    ensures SaveArticle(SaveArticle(store, a).value, b) == SaveArticle(store, b)
  {
    FileNameIgnoresQuery(a.link, query);
    var name := FileName(a.link).value;
    assert store[name := RecordOf(a)][name := RecordOf(b)] == store[name := RecordOf(b)];
  }
}

=== FILE: collect.dfy ===
/**
 * Gathering article URLs: the issue coordinates of `collect_article_uris`,
 * the index-page URL of each issue, the article URLs `get_articles_uris`
 * extracts from an index page, and the fixed denylist filter.
 */
module Collect {
  import opened Wrappers
  import opened PyText
  import opened Patterns

  /** One weekly issue: a year and an issue number. */
  datatype Coord = Coord(year: int, issue: int)

  /** `range(1, 60)`: every year is visited for issue numbers 1 to 59. */
  const IssuesPerYear: nat := 59

  /** The issue coordinates of one year, in issue order. */
  function YearCoords(y: int): (r: seq<Coord>)
    ensures |r| == IssuesPerYear
  {
    seq(IssuesPerYear, i requires 0 <= i < IssuesPerYear => Coord(y, i + 1))
  }

  /** The list comprehension over `range(year_from, year_to + 1)` and `range(1, 60)`: year-major. */
  function AllCoords(yearFrom: int, yearTo: int): (r: seq<Coord>)
    decreases yearTo - yearFrom + 1
  {
    if yearFrom > yearTo then [] else YearCoords(yearFrom) + AllCoords(yearFrom + 1, yearTo)
  }

  /** Python's `s[start:]` for any integer `start`: a negative start counts from the end. */
  function PySliceFrom<T>(s: seq<T>, start: int): (r: seq<T>)
    ensures |r| <= |s| && r == s[|s| - |r|..]
    ensures start >= 0 ==> |r| == if start <= |s| then |s| - start else 0
    ensures start < 0 ==> |r| == if -start <= |s| then -start else |s|
  {
    if start >= 0 then (if start <= |s| then s[start..] else [])
    else if |s| + start >= 0 then s[|s| + start..]
    else s
  }

  /** `[...][skip_issues - 1:]`: the coordinates still to visit, `skip_issues` being the 1-based issue to resume at. */
  function Coordinates(yearFrom: int, yearTo: int, skipIssues: int): (r: seq<Coord>)
    ensures var all := AllCoords(yearFrom, yearTo); |r| <= |all| && r == all[|all| - |r|..]
  {
    PySliceFrom(AllCoords(yearFrom, yearTo), skipIssues - 1)
  }

  /** `'/'.join([base, "tydenik/{}/{}"]).format(y, iid)`: the base is used as given, without stripping slashes. */
  function IndexUrl(base: string, c: Coord): (r: string)
    ensures IsPrefix(base + "/" + IdLit, r)
  {
    var r := base + "/" + IdLit + IntToString(c.year) + "/" + IntToString(c.issue);
    assert r[..|base + "/" + IdLit|] == base + "/" + IdLit;
    r
  }

  /** The article path a match spans, with every `&quot;` removed in one pass. */
  function SafeUri(g: Groups): (r: string)
    ensures IsPrefix(ItemLit, r)
  {
    ReplaceAfterPrefix(ItemLit, PathOf(g), "&quot;", "");
    Replace(Render(ItemLit, g), "&quot;", "")
  }

  /** `'/'.join([base.rstrip('/'), uri.lstrip('/')])` */
  function JoinUrl(base: string, uri: string): (r: string)
    ensures var b := RStrip(base, IsSlash);
            && |b| < |r| && r[..|b|] == b && r[|b|] == '/'
            && (|b| == 0 || r[|b| - 1] != '/')
            && (|b| + 1 == |r| || r[|b| + 1] != '/')
  {
    RStrip(base, IsSlash) + "/" + LStrip(uri, IsSlash)
  }

  /** `get_articles_uris` after the download: every path match of the page, cleaned and joined to the base, in page order. */
  function ExtractUrls(base: string, page: string): (r: seq<string>)
    ensures |r| == |FindAll(page, ItemLit, ItemStop)|
  {
    var ms := FindAll(page, ItemLit, ItemStop);
    seq(|ms|, i requires 0 <= i < |ms| => JoinUrl(base, SafeUri(ms[i])))
  }

  /** The article URL for a match, stated independently of the join: stripped base, `/tydenik/`, cleaned path. */
  function ArticleUrl(base: string, g: Groups): (r: string) {
    RStrip(base, IsSlash) + "/" + IdLit + Replace(PathOf(g), "&quot;", "")
  }

  /** `uri_blacklist`: six article URLs that are never yielded. */
  const Denylist: seq<string> := [
    "https://www.respekt.cz/tydenik/2005/52/rejstrik-2005?issueId=871",
    "https://www.respekt.cz/tydenik/2000/33/czechvztek-05?issueId=593",
    "https://www.respekt.cz/tydenik/2006/41/festival-dokumentarnich-filmu-jihlava?issueId=926",
    "https://www.respekt.cz/tydenik/2006/43/tyden-a-veda?issueId=928",
    "https://www.respekt.cz/tydenik/2019/28/vsechno-je-jejich",
    "https://www.respekt.cz/tydenik/2020/34/respekt-%e2%80%a2-despekt?issueId=100470"
  ]

  /** `if uri not in uri_blacklist`, applied to a list in order. */
  function Keep(urls: seq<string>): (r: seq<string>)
    ensures |r| <= |urls|
  {
    if |urls| == 0 then []
    else Kept(urls[0]) + Keep(urls[1..])
  }

  /** One URL through the filter: dropped when denylisted. */
  function Kept(u: string): (r: seq<string>)
  {
    if u in Denylist then [] else [u]
  }

  /** The loop body of `collect_article_uris` for every coordinate in turn: fetch the index page, extract, filter. */
  function Gather(base: string, pages: string -> string, cs: seq<Coord>): (r: seq<string>)
  {
    if |cs| == 0 then []
    else PageUrls(base, pages, cs[0]) + Gather(base, pages, cs[1..])
  }

  /** What one index page contributes: its extracted URLs, denylisted ones dropped. */
  function PageUrls(base: string, pages: string -> string, c: Coord): (r: seq<string>)
  {
    Keep(ExtractUrls(base, pages(IndexUrl(base, c))))
  }

  /** The unfiltered stream: every extracted URL of every visited index page, in visiting order. */
  function Flat(base: string, pages: string -> string, cs: seq<Coord>): (r: seq<string>)
  {
    if |cs| == 0 then []
    else ExtractUrls(base, pages(IndexUrl(base, cs[0]))) + Flat(base, pages, cs[1..])
  }

  /** `collect_article_uris`, with the index pages given as a function from URL to page text. */
  function CollectUrls(base: string, pages: string -> string, yearFrom: int, yearTo: int, skipIssues: int): (r: seq<string>)
  {
    Gather(base, pages, Coordinates(yearFrom, yearTo, skipIssues))
  }

  // ---------------------------------------------------------------- coordinates

  /** Year-major order is the lexicographic order on (year, issue). */
  predicate Before(a: Coord, b: Coord) {
    a.year < b.year || (a.year == b.year && a.issue < b.issue)
  }

  /** The full list has 59 issues for every year of the range. */
  lemma {:induction false} AllCoordsLength(yearFrom: int, yearTo: int)
    ensures |AllCoords(yearFrom, yearTo)| == if yearFrom > yearTo then 0 else IssuesPerYear * (yearTo - yearFrom + 1)
    decreases yearTo - yearFrom + 1
  {
    if yearFrom <= yearTo {
      AllCoordsLength(yearFrom + 1, yearTo);
    }
  }

  /** Element `k` of the full list is issue `k % 59 + 1` of year `year_from + k / 59`. */
  lemma {:induction false} AllCoordsAt(yearFrom: int, yearTo: int, k: int)
    requires 0 <= k < |AllCoords(yearFrom, yearTo)|
    ensures AllCoords(yearFrom, yearTo)[k] == Coord(yearFrom + k / IssuesPerYear, k % IssuesPerYear + 1)
    decreases yearTo - yearFrom + 1
  {
    var head := YearCoords(yearFrom);
    var tail := AllCoords(yearFrom + 1, yearTo);
    if k >= IssuesPerYear {
      AllCoordsAt(yearFrom + 1, yearTo, k - IssuesPerYear);
      assert (head + tail)[k] == tail[k - IssuesPerYear];
      DivStep(k);
    } else {
      assert (head + tail)[k] == head[k];
    }
  }

  lemma DivStep(k: int)
    requires k >= IssuesPerYear
    ensures k / IssuesPerYear == (k - IssuesPerYear) / IssuesPerYear + 1
    ensures k % IssuesPerYear == (k - IssuesPerYear) % IssuesPerYear
  {
  }

  /** Every coordinate of the full list lies in the year range and has an issue number from 1 to 59. */
  lemma AllCoordsBounds(yearFrom: int, yearTo: int, k: int)
    requires 0 <= k < |AllCoords(yearFrom, yearTo)|
    ensures yearFrom <= AllCoords(yearFrom, yearTo)[k].year <= yearTo
    ensures 1 <= AllCoords(yearFrom, yearTo)[k].issue <= IssuesPerYear
  {
    AllCoordsAt(yearFrom, yearTo, k);
    AllCoordsLength(yearFrom, yearTo);
    DivBound(k, yearTo - yearFrom + 1);
  }

  lemma DivBound(k: int, years: int)
    requires 0 <= k < IssuesPerYear * years
    ensures 0 <= k / IssuesPerYear < years
  {
  }

  /** The full list is strictly ascending in year-major order, so it holds no coordinate twice. */
  lemma AllCoordsAscending(yearFrom: int, yearTo: int, i: int, j: int)
    requires 0 <= i < j < |AllCoords(yearFrom, yearTo)|
    ensures Before(AllCoords(yearFrom, yearTo)[i], AllCoords(yearFrom, yearTo)[j])
  {
    AllCoordsAt(yearFrom, yearTo, i);
    AllCoordsAt(yearFrom, yearTo, j);
    DivMonotone(i, j);
  }

  lemma DivMonotone(i: int, j: int)
    requires 0 <= i < j
    ensures i / IssuesPerYear < j / IssuesPerYear
            || (i / IssuesPerYear == j / IssuesPerYear && i % IssuesPerYear < j % IssuesPerYear)
  {
  }

  /** A resume point `k >= 1` keeps exactly the suffix that starts at the `k`-th coordinate (1-based). */
  lemma CoordinatesResume(yearFrom: int, yearTo: int, k: int)
    requires k >= 1
    ensures var all := AllCoords(yearFrom, yearTo);
            Coordinates(yearFrom, yearTo, k) == if k - 1 <= |all| then all[k - 1..] else []
  {
  }

  /** `skip_issues = 0` makes the slice `[-1:]`: only the last coordinate of the range is visited. */
  lemma CoordinatesZero(yearFrom: int, yearTo: int)
    requires yearFrom <= yearTo
    ensures Coordinates(yearFrom, yearTo, 0) == [Coord(yearTo, IssuesPerYear)]
  {
    var all := AllCoords(yearFrom, yearTo);
    AllCoordsLength(yearFrom, yearTo);
    var n := |all|;
    AllCoordsAt(yearFrom, yearTo, n - 1);
    LastIndex(yearTo - yearFrom + 1);
    assert all[n - 1..] == [all[n - 1]];
  }

  lemma LastIndex(years: int)
    requires years >= 1
    ensures (IssuesPerYear * years - 1) / IssuesPerYear == years - 1
    ensures (IssuesPerYear * years - 1) % IssuesPerYear == IssuesPerYear - 1
  {
  }

  // ---------------------------------------------------------------- index URLs

  /** `str(n)` never contains a slash. */
  lemma IntStringHasNoSlash(n: int)
    ensures '/' !in IntToString(n)
  {
    var s := IntToString(n);
    if n >= 0 {
      assert forall i :: 0 <= i < |s| ==> IsDigit(s[i]);
    } else {
      NegativeTail(n);
      assert forall i :: 1 <= i < |s| ==> s[i] == s[1..][i - 1];
    }
  }

  /** Distinct coordinates have distinct index URLs, so no index page is requested twice. */
  lemma IndexUrlInjective(base: string, c1: Coord, c2: Coord)
    requires IndexUrl(base, c1) == IndexUrl(base, c2)
    ensures c1 == c2
  {
    var p := base + "/" + IdLit;
    IndexUrlShape(base, c1);
    IndexUrlShape(base, c2);
    CommonPrefix(p, IssuePath(c1), IssuePath(c2));
    IntStringHasNoSlash(c1.year);
    IntStringHasNoSlash(c2.year);
    CutAtFirst(IntToString(c1.year), IntToString(c1.issue), IntToString(c2.year), IntToString(c2.issue), '/');
    IntToStringInjective(c1.year, c2.year);
    IntToStringInjective(c1.issue, c2.issue);
  }

  /** `year/issue`, the part of an index URL that names the issue. */
  function IssuePath(c: Coord): (r: string) {
    IntToString(c.year) + "/" + IntToString(c.issue)
  }

  lemma IndexUrlShape(base: string, c: Coord)
    ensures IndexUrl(base, c) == (base + "/" + IdLit) + IssuePath(c)
  {
  }

  /** Equal texts with equal prefixes have equal remainders. */
  lemma CommonPrefix(p: string, x: string, y: string)
    requires p + x == p + y
    ensures x == y
  {
    assert (p + x)[|p|..] == x;
    assert (p + y)[|p|..] == y;
  }

  // ---------------------------------------------------------------- extraction

  /** The joined URL of a match is the stripped base, `/tydenik/` and the cleaned path after the literal. */
  lemma ExtractedUrl(base: string, g: Groups)
    ensures JoinUrl(base, SafeUri(g)) == ArticleUrl(base, g)
  {
    var path := PathOf(g);
    assert Render(ItemLit, g) == "/" + (IdLit + path);
    ReplaceAfterPrefix("/" + IdLit, path, "&quot;", "");
    assert "/" + IdLit + path == "/" + (IdLit + path);
    var clean := Replace(path, "&quot;", "");
    assert SafeUri(g) == "/" + (IdLit + clean);
    assert (IdLit + clean)[0] == 't';
    LStripPrefix("/", IdLit + clean, IsSlash);
  }

  /** Output `i` of the extraction is the article URL of match `i`: one URL per match, in page order, duplicates kept. */
  lemma ExtractUrlsAt(base: string, page: string, i: int)
    requires 0 <= i < |ExtractUrls(base, page)|
    ensures ExtractUrls(base, page)[i] == ArticleUrl(base, FindAll(page, ItemLit, ItemStop)[i])
  {
    ExtractedUrl(base, FindAll(page, ItemLit, ItemStop)[i]);
  }

  /** Every extracted URL starts with the stripped base followed by `/tydenik/`. */
  lemma ExtractUrlsPrefix(base: string, page: string, i: int)
    requires 0 <= i < |ExtractUrls(base, page)|
    ensures IsPrefix(RStrip(base, IsSlash) + "/" + IdLit, ExtractUrls(base, page)[i])
  {
    ExtractUrlsAt(base, page, i);
    var g := FindAll(page, ItemLit, ItemStop)[i];
    var p := RStrip(base, IsSlash) + "/" + IdLit;
    var u := ArticleUrl(base, g);
    assert u == p + Replace(PathOf(g), "&quot;", "");
    assert u[..|p|] == p;
  }

  /** The path of a match holds no double quote, and removing `&quot;` cannot add one. */
  lemma CleanPathHasNoQuote(g: Groups)
    requires WellFormed(g, ItemStop)
    ensures '"' !in Replace(PathOf(g), "&quot;", "")
  {
    var p := PathOf(g);
    assert forall k :: 0 <= k < |g.year| ==> IsDigit(g.year[k]);
    assert forall k :: 0 <= k < |g.issue| ==> IsDigit(g.issue[k]);
    assert '"' !in p;
    DeleteKeepsAbsent(p, "&quot;", '"');
  }

  /** No extracted URL contains a double quote unless the base does. */
  lemma ExtractUrlsNoQuote(base: string, page: string, i: int)
    requires '"' !in base
    requires 0 <= i < |ExtractUrls(base, page)|
    ensures '"' !in ExtractUrls(base, page)[i]
  {
    ExtractUrlsAt(base, page, i);
    FindAllWellFormed(page, ItemLit, ItemStop);
    var g := FindAll(page, ItemLit, ItemStop)[i];
    CleanPathHasNoQuote(g);
    var b := RStrip(base, IsSlash);
    assert forall k :: 0 <= k < |b| ==> b[k] == base[k];
  }

  /** A page on which `/tydenik/` never occurs yields no URL. */
  lemma ExtractUrlsNone(base: string, page: string)
    requires !Contains(page, ItemLit)
    ensures ExtractUrls(base, page) == []
  {
    FindAllAbsent(page, ItemLit, ItemStop);
  }

  /** A page listing article paths yields their article URLs, in order and with repetitions. */
  lemma ExtractUrlsListing(base: string, gs: seq<Groups>, junk: string)
    requires '/' !in junk
    requires forall i :: 0 <= i < |gs| ==> WellFormed(gs[i], ItemStop)
    ensures ExtractUrls(base, Listing(gs, junk, ItemLit, ItemStop)) == seq(|gs|, i requires 0 <= i < |gs| => ArticleUrl(base, gs[i]))
  {
    var page := Listing(gs, junk, ItemLit, ItemStop);
    FindAllListing(gs, junk, ItemLit, ItemStop);
    forall i | 0 <= i < |gs| ensures ExtractUrls(base, page)[i] == ArticleUrl(base, gs[i]) {
      ExtractUrlsAt(base, page, i);
    }
  }

  // ---------------------------------------------------------------- denylist and gathering

  /** A URL survives the filter exactly when it was in the input and is not denylisted. */
  lemma {:induction false} KeepMembership(urls: seq<string>, u: string)
    ensures u in Keep(urls) <==> u in urls && u !in Denylist
    decreases |urls|
  {
    if |urls| > 0 {
      KeepMembership(urls[1..], u);
      assert urls == [urls[0]] + urls[1..];
    }
  }

  /** The filter keeps every surviving URL as often as it occurs, in order. */
  lemma {:induction false} KeepCounts(urls: seq<string>, u: string)
    ensures multiset(Keep(urls))[u] == if u in Denylist then 0 else multiset(urls)[u]
    decreases |urls|
  {
    if |urls| > 0 {
      KeepCounts(urls[1..], u);
      assert urls == [urls[0]] + urls[1..];
    }
  }

  /** Filtering a concatenation filters each part. */
  lemma {:induction false} KeepConcat(a: seq<string>, b: seq<string>)
    ensures Keep(a + b) == Keep(a) + Keep(b)
    decreases |a|
  {
    if |a| == 0 {
      assert a + b == b;
    } else {
      ConsConcat(a, b);
      KeepConcat(a[1..], b);
      AppendAssoc(Kept(a[0]), Keep(a[1..]), Keep(b));
    }
  }

  /** Filtering page by page is filtering the whole stream: coordinate order, then page order, duplicates kept. */
  lemma {:induction false} GatherIsKeepFlat(base: string, pages: string -> string, cs: seq<Coord>)
    ensures Gather(base, pages, cs) == Keep(Flat(base, pages, cs))
    decreases |cs|
  {
    if |cs| > 0 {
      GatherIsKeepFlat(base, pages, cs[1..]);
      KeepConcat(ExtractUrls(base, pages(IndexUrl(base, cs[0]))), Flat(base, pages, cs[1..]));
    }
  }

  /** The URLs gathered over two runs of coordinates are those of the first followed by those of the second. */
  lemma {:induction false} GatherConcat(base: string, pages: string -> string, a: seq<Coord>, b: seq<Coord>)
    ensures Gather(base, pages, a + b) == Gather(base, pages, a) + Gather(base, pages, b)
    decreases |a|
  {
    if |a| == 0 {
      assert a + b == b;
    } else {
      ConsConcat(a, b);
      GatherConcat(base, pages, a[1..], b);
      AppendAssoc(PageUrls(base, pages, a[0]), Gather(base, pages, a[1..]), Gather(base, pages, b));
    }
  }

  lemma ConsConcat<T>(a: seq<T>, b: seq<T>)
    requires |a| > 0
    ensures |a + b| > 0 && (a + b)[0] == a[0] && (a + b)[1..] == a[1..] + b
  {
  }

  lemma AppendAssoc<T>(x: seq<T>, y: seq<T>, z: seq<T>)
    ensures x + (y + z) == (x + y) + z
  {
  }

  /** A URL is yielded exactly when some visited index page produced it and it is not denylisted. */
  lemma {:induction false} GatherMembership(base: string, pages: string -> string, cs: seq<Coord>, u: string)
    ensures u in Gather(base, pages, cs) <==>
              u !in Denylist && exists i :: 0 <= i < |cs| && u in ExtractUrls(base, pages(IndexUrl(base, cs[i])))
    decreases |cs|
  {
    if |cs| > 0 {
      GatherMembership(base, pages, cs[1..], u);
      KeepMembership(ExtractUrls(base, pages(IndexUrl(base, cs[0]))), u);
      if u in Gather(base, pages, cs[1..]) {
        var i :| 0 <= i < |cs[1..]| && u in ExtractUrls(base, pages(IndexUrl(base, cs[1..][i])));
        assert cs[1..][i] == cs[i + 1];
      }
      if exists i :: 0 <= i < |cs| && u in ExtractUrls(base, pages(IndexUrl(base, cs[i]))) {
        var i :| 0 <= i < |cs| && u in ExtractUrls(base, pages(IndexUrl(base, cs[i])));
        if i > 0 {
          assert cs[1..][i - 1] == cs[i];
        }
      }
    }
  }

  /** No denylisted URL is ever yielded. */
  lemma CollectAvoidsDenylist(base: string, pages: string -> string, yearFrom: int, yearTo: int, skipIssues: int, u: string)
    requires u in Denylist
    ensures u !in CollectUrls(base, pages, yearFrom, yearTo, skipIssues)
  {
    GatherMembership(base, pages, Coordinates(yearFrom, yearTo, skipIssues), u);
  }

  /**
   * Resuming at issue `k` (1-based) yields exactly what a full run yields
   * after the URLs of the first `k - 1` issues.
   */
  lemma CollectResume(base: string, pages: string -> string, yearFrom: int, yearTo: int, k: int)
    requires 1 <= k <= |AllCoords(yearFrom, yearTo)| + 1
    ensures var all := AllCoords(yearFrom, yearTo);
            CollectUrls(base, pages, yearFrom, yearTo, 1)
            == Gather(base, pages, all[..k - 1]) + CollectUrls(base, pages, yearFrom, yearTo, k)
  {
    var all := AllCoords(yearFrom, yearTo);
    CoordinatesResume(yearFrom, yearTo, 1);
    CoordinatesResume(yearFrom, yearTo, k);
    GatherSplit(base, pages, all, k - 1);
  }

  /** Visiting a list of coordinates is visiting its first `n` and then the rest. */
  lemma GatherSplit(base: string, pages: string -> string, cs: seq<Coord>, n: int)
    requires 0 <= n <= |cs|
    ensures Gather(base, pages, cs) == Gather(base, pages, cs[..n]) + Gather(base, pages, cs[n..])
  {
    assert cs == cs[..n] + cs[n..];
    GatherConcat(base, pages, cs[..n], cs[n..]);
  }
}

=== FILE: headers.dfy ===
/**
 * Turning a copied `curl ... -H 'Name: value'` command line into the header
 * map sent with every request (`process_headers`).
 */
module Headers {
  import opened Wrappers
  import opened PyText

  /** Header name to header value. */
  type HeaderMap = map<string, string>

  /** The only way the parser fails: a header chunk with no colon (Python raises ValueError from `index`). */
  datatype HeaderError = MissingColon(line: string)

  /** The token that introduces a header on a curl command line. */
  const HeaderFlag: string := "-H"

  /** The header removed so that the server answers with an uncompressed body. */
  const DroppedHeader: string := "Accept-Encoding"

  /** Python's `dict(pairs)`: later pairs overwrite earlier ones with the same name. */
  function Dict(ps: seq<(string, string)>): (r: HeaderMap)
    ensures |ps| > 0 ==> ps[|ps| - 1].0 in r
    decreases |ps|
  {
    if |ps| == 0 then map[]
    else Dict(ps[..|ps| - 1])[ps[|ps| - 1].0 := ps[|ps| - 1].1]
  }

  /** The keys of `dict(pairs)` are the names of the pairs, and each name maps to the value of its last pair. */
  lemma {:induction false} DictSpec(ps: seq<(string, string)>)
    ensures forall k :: k in Dict(ps) <==> exists i :: 0 <= i < |ps| && ps[i].0 == k
    ensures forall i :: 0 <= i < |ps| && (forall j :: i < j < |ps| ==> ps[j].0 != ps[i].0) ==> Dict(ps)[ps[i].0] == ps[i].1
    decreases |ps|
  {
    if |ps| > 0 {
      var init := ps[..|ps| - 1];
      DictSpec(init);
      assert forall i :: 0 <= i < |ps| - 1 ==> init[i] == ps[i];
    }
  }

  /** The text after each `-H`, stripped of surrounding whitespace and then of surrounding single quotes. */
  function HeaderLines(cmd: string): (r: seq<string>)
    ensures |r| == |Split(cmd, HeaderFlag)| - 1
    ensures forall i :: 0 <= i < |r| ==> r[i] == [] || (r[i][0] != '\'' && r[i][|r[i]| - 1] != '\'')
  {
    var chunks := Split(cmd, HeaderFlag)[1..];
    seq(|chunks|, i requires 0 <= i < |chunks| => Strip(Strip(chunks[i], IsSpace), IsQuote))
  }

  /** `line` is `name:raw` with no colon in `name`, and `value` is `raw` with surrounding whitespace removed. */
  predicate IsHeaderSplit(line: string, name: string, value: string) {
    && ':' !in name
    && |name| < |line|
    && line[..|name|] == name
    && line[|name|] == ':'
    && value == Strip(line[|name| + 1..], IsSpace)
  }

  /** One header line cut at its first colon into the untrimmed name and the whitespace-trimmed value. */
  function ParsePair(line: string): (r: Option<(string, string)>)
    ensures r.None? <==> ':' !in line
  {
    match FirstIndex(line, ':')
    case None => None
    case Some(idx) =>
      Some((line[..idx], Strip(line[idx + 1..], IsSpace)))
  }

  /** A parsed line is cut at its first colon: the name has no colon and the value is the trimmed remainder. */
  lemma ParsePairSplits(line: string)
    requires ParsePair(line).Some?
    ensures IsHeaderSplit(line, ParsePair(line).value.0, ParsePair(line).value.1)
  {
  }

  /** All header lines parsed in order; the first line without a colon aborts the whole parse. */
  function ParsePairs(lines: seq<string>): (r: Result<seq<(string, string)>, HeaderError>)
    ensures r.Success? ==> |r.value| == |lines|
    decreases |lines|
  {
    if |lines| == 0 then Success([])
    else
      var head := ParsePair(lines[0]);
      if head.None? then Failure(MissingColon(lines[0]))
      else
        var tail := ParsePairs(lines[1..]);
        if tail.Failure? then Failure(tail.error)
        else Success([head.value] + tail.value)
  }

  /** The parse succeeds exactly when every line has a colon. */
  lemma {:induction false} ParsePairsSucceeds(lines: seq<string>)
    ensures ParsePairs(lines).Success? <==> forall i :: 0 <= i < |lines| ==> ':' in lines[i]
    decreases |lines|
  {
    if |lines| > 0 {
      ParsePairsSucceeds(lines[1..]);
      if ParsePair(lines[0]).Some? && ParsePairs(lines[1..]).Success? {
        forall i | 0 <= i < |lines| ensures ':' in lines[i] {
          if i > 0 { assert lines[i] == lines[1..][i - 1]; }
        }
      } else if ParsePair(lines[0]).Some? {
        var k :| 0 <= k < |lines[1..]| && ':' !in lines[1..][k];
        assert lines[k + 1] == lines[1..][k];
      }
    }
  }

  /** On success, pair `i` is the split of line `i`. */
  lemma {:induction false} ParsePairsAt(lines: seq<string>, i: int)
    requires ParsePairs(lines).Success?
    requires 0 <= i < |lines|
    ensures ParsePair(lines[i]) == Some(ParsePairs(lines).value[i])
    decreases |lines|
  {
    var tail := ParsePairs(lines[1..]);
    assert tail.Success?;
    assert ParsePairs(lines).value == [ParsePair(lines[0]).value] + tail.value;
    if i > 0 {
      ParsePairsAt(lines[1..], i - 1);
      assert lines[i] == lines[1..][i - 1];
    }
  }

  /** On failure, the reported line is one of the lines and has no colon. */
  lemma {:induction false} ParsePairsFailure(lines: seq<string>)
    requires ParsePairs(lines).Failure?
    ensures ParsePairs(lines).error.line in lines && ':' !in ParsePairs(lines).error.line
    decreases |lines|
  {
    if ParsePair(lines[0]).Some? {
      ParsePairsFailure(lines[1..]);
    }
  }

  /** A list of lines parses to `ps` when its first line parses to the first pair and the rest to the rest. */
  lemma ParsePairsOfLines(lines: seq<string>, ps: seq<(string, string)>)
    requires |lines| > 0 && |ps| > 0
    requires ParsePair(lines[0]) == Some(ps[0]) && ParsePairs(lines[1..]) == Success(ps[1..])
    ensures ParsePairs(lines) == Success(ps)
  {
    assert [ps[0]] + ps[1..] == ps;
  }

  /** `line` parses to a header called `name`. */
  predicate Names(line: string, name: string) {
    ParsePair(line).Some? && ParsePair(line).value.0 == name
  }

  /** The header map built from already-stripped header lines, without `Accept-Encoding`. */
  function HeadersOfLines(lines: seq<string>): (r: Result<HeaderMap, HeaderError>)
    ensures r.Success? ==> DroppedHeader !in r.value
    ensures r.Failure? <==> exists i :: 0 <= i < |lines| && ':' !in lines[i]
  {
    ParsePairsSucceeds(lines);
    match ParsePairs(lines)
    case Failure(e) => Failure(e)
    case Success(ps) => Success(Dict(ps) - {DroppedHeader})
  }

  /** `process_headers`: parse every `-H` chunk and drop `Accept-Encoding` (exact case only). */
  function ProcessHeaders(cmd: string): (r: Result<HeaderMap, HeaderError>)
    ensures r.Success? ==> DroppedHeader !in r.value
    ensures r.Failure? <==> exists i :: 0 <= i < |HeaderLines(cmd)| && ':' !in HeaderLines(cmd)[i]
  {
    HeadersOfLines(HeaderLines(cmd))
  }

  /** The names in the parsed dictionary are exactly the names of the lines. */
  lemma DictKeys(lines: seq<string>, k: string)
    requires ParsePairs(lines).Success?
    ensures k in Dict(ParsePairs(lines).value) <==> exists i :: 0 <= i < |lines| && Names(lines[i], k)
  {
    var ps := ParsePairs(lines).value;
    DictSpec(ps);
    forall i | 0 <= i < |lines| ensures Names(lines[i], k) <==> ps[i].0 == k {
      ParsePairsAt(lines, i);
    }
  }

  /** The value stored for a name is the one on the last line with that name. */
  lemma DictLast(lines: seq<string>, i: int)
    requires ParsePairs(lines).Success?
    requires 0 <= i < |lines| && ParsePair(lines[i]).Some?
    requires forall j :: i < j < |lines| ==> !Names(lines[j], ParsePair(lines[i]).value.0)
    ensures ParsePair(lines[i]).value.0 in Dict(ParsePairs(lines).value)
    ensures Dict(ParsePairs(lines).value)[ParsePair(lines[i]).value.0] == ParsePair(lines[i]).value.1
  {
    var ps := ParsePairs(lines).value;
    DictSpec(ps);
    ParsePairsAt(lines, i);
    forall j | i < j < |lines| ensures ps[j].0 != ps[i].0 {
      ParsePairsAt(lines, j);
    }
  }

  /** The headers kept are exactly the names on the header lines other than `Accept-Encoding`. */
  lemma HeaderKeys(lines: seq<string>, k: string)
    requires HeadersOfLines(lines).Success?
    ensures k in HeadersOfLines(lines).value <==>
              k != DroppedHeader && exists i :: 0 <= i < |lines| && Names(lines[i], k)
  {
    DictKeys(lines, k);
  }

  /** A repeated header name keeps the value of its last occurrence. */
  lemma HeaderValueIsLast(lines: seq<string>, i: int)
    requires HeadersOfLines(lines).Success?
    requires 0 <= i < |lines| && ParsePair(lines[i]).Some?
    requires ParsePair(lines[i]).value.0 != DroppedHeader
    requires forall j :: i < j < |lines| ==> !Names(lines[j], ParsePair(lines[i]).value.0)
    ensures ParsePair(lines[i]).value.0 in HeadersOfLines(lines).value
    ensures HeadersOfLines(lines).value[ParsePair(lines[i]).value.0] == ParsePair(lines[i]).value.1
  {
    DictLast(lines, i);
  }

  /** Splitting on `-H` after a stretch of text that contains no `-H` yields that text as the first piece. */
  lemma {:induction false} SplitAfterPreamble(pre: string, rest: string)
    requires !Contains(pre, HeaderFlag)
    ensures Split(pre + HeaderFlag + rest, HeaderFlag) == [pre] + Split(rest, HeaderFlag)
    decreases |pre|
  {
    var s := pre + HeaderFlag + rest;
    if |pre| == 0 {
      assert s == HeaderFlag + rest;
      assert s[|HeaderFlag|..] == rest;
    } else {
      assert !IsPrefix(HeaderFlag, s) by {
        if |pre| >= 2 {
          assert s[..2] == pre[..2];
        } else {
          assert s[1] == '-';
        }
      }
      assert s[1..] == pre[1..] + HeaderFlag + rest;
      SplitAfterPreamble(pre[1..], rest);
      var t := Split(s[1..], HeaderFlag);
      assert t == [pre[1..]] + Split(rest, HeaderFlag);
      assert t[1..] == Split(rest, HeaderFlag);
      assert [s[0]] + t[0] == pre;
    }
  }

  /** Whatever precedes the first `-H` (the `curl` command and URL) does not affect the result. */
  lemma PreambleIgnored(pre: string, rest: string)
    requires !Contains(pre, HeaderFlag)
    ensures ProcessHeaders(pre + HeaderFlag + rest) == ProcessHeaders(HeaderFlag + rest)
  {
    SplitAfterPreamble(pre, rest);
    SplitAfterPreamble("", rest);
    assert "" + HeaderFlag + rest == HeaderFlag + rest;
    assert HeaderLines(pre + HeaderFlag + rest) == HeaderLines(HeaderFlag + rest);
  }

  /** Text with no `-H` in it is a single piece. */
  lemma {:induction false} SplitWithoutFlag(s: string)
    requires !Contains(s, HeaderFlag)
    ensures Split(s, HeaderFlag) == [s]
    decreases |s|
  {
    if |s| > 0 {
      SplitWithoutFlag(s[1..]);
      assert [s[0]] + s[1..] == s;
    }
  }

  /** `-H` occurs only where a `-` is directly followed by an `H`. */
  lemma {:induction false} NoFlagWithoutDashH(s: string)
    requires forall k :: 0 <= k < |s| - 1 ==> !(s[k] == '-' && s[k + 1] == 'H')
    ensures !Contains(s, HeaderFlag)
    decreases |s|
  {
    if |s| > 0 {
      NoFlagWithoutDashH(s[1..]);
      if |s| >= 2 {
        assert s[..2] != HeaderFlag by { assert !(s[0] == '-' && s[1] == 'H'); }
      }
    }
  }
}

/**
 * Rendering a header list as `-H 'name: value'` flags, the shape a browser's
 * "copy as curl" produces, and reading it back with `process_headers`.
 */
module CurlRoundTrip {
  import opened Wrappers
  import opened PyText
  import opened Headers

  /** `name: value`, one header line. */
  function HeaderLine(p: (string, string)): (r: string) {
    p.0 + ": " + p.1
  }

  /** The text that follows one `-H`: the header line in single quotes, padded by spaces. */
  function Chunk(p: (string, string)): (r: string) {
    " '" + HeaderLine(p) + "' "
  }

  /** A command line carrying every header of `ps` as its own `-H` flag, in order. */
  function CurlFlags(ps: seq<(string, string)>): (r: string)
    decreases |ps|
  {
    if |ps| == 0 then "" else HeaderFlag + Chunk(ps[0]) + CurlFlags(ps[1..])
  }

  /**
   * A header that survives the round trip: the name has no colon and does not
   * start with a quote, neither part contains `-H`, and the value has no
   * surrounding whitespace and does not end with a quote.
   */
  predicate Renderable(p: (string, string)) {
    && ':' !in p.0
    && !Contains(p.0, HeaderFlag)
    && !Contains(p.1, HeaderFlag)
    && (p.0 == [] || p.0[0] != '\'')
    && (p.1 == [] || (!IsSpace(p.1[0]) && !IsSpace(p.1[|p.1| - 1]) && p.1[|p.1| - 1] != '\''))
  }

  /** Gluing two `-H`-free texts creates no `-H` unless the first ends with `-` and the second starts with `H`. */
  lemma {:induction false} NoFlagConcat(a: string, b: string)
    requires !Contains(a, HeaderFlag) && !Contains(b, HeaderFlag)
    requires a == [] || b == [] || a[|a| - 1] != '-' || b[0] != 'H'
    ensures !Contains(a + b, HeaderFlag)
    decreases |a|
  {
    if |a| == 0 {
      assert a + b == b;
    } else {
      var ab := a + b;
      assert ab[1..] == a[1..] + b;
      NoFlagConcat(a[1..], b);
      assert !IsPrefix(HeaderFlag, ab) by {
        if |a| >= 2 {
          assert !IsPrefix(HeaderFlag, a);
          assert ab[..2] == a[..2];
        } else if |b| > 0 {
          assert ab[0] == a[0] && ab[1] == b[0];
        }
      }
    }
  }

  /** The text after a `-H` flag of a renderable header has no `-H` of its own. */
  lemma ChunkHasNoFlag(p: (string, string))
    requires Renderable(p)
    ensures !Contains(Chunk(p), HeaderFlag)
  {
    var a, b, c := " '" + p.0, " '" + p.0 + ": ", " '" + p.0 + ": " + p.1;
    NoFlagWithoutDashH(" '");
    NoFlagWithoutDashH(": ");
    NoFlagWithoutDashH("' ");
    NoFlagConcat(" '", p.0);
    NoFlagConcat(a, ": ");
    assert b[|b| - 1] == ' ';
    NoFlagConcat(b, p.1);
    NoFlagConcat(c, "' ");
    assert Chunk(p) == c + "' ";
  }

  /** Without the leading `-H`, the flags split into exactly the chunks of the headers. */
  lemma {:induction false} SplitChunks(ps: seq<(string, string)>)
    requires |ps| >= 1
    requires forall i :: 0 <= i < |ps| ==> Renderable(ps[i])
    ensures Split(Chunk(ps[0]) + CurlFlags(ps[1..]), HeaderFlag) == Chunks(ps)
    decreases |ps|
  {
    ChunkHasNoFlag(ps[0]);
    if |ps| == 1 {
      assert CurlFlags(ps[1..]) == "";
      assert Chunk(ps[0]) + "" == Chunk(ps[0]);
      SplitWithoutFlag(Chunk(ps[0]));
    } else {
      var tl := ps[1..];
      SplitChunks(tl);
      assert tl[1..] == ps[2..];
      var rest := Chunk(tl[0]) + CurlFlags(tl[1..]);
      assert CurlFlags(tl) == HeaderFlag + rest;
      assert Chunk(ps[0]) + CurlFlags(tl) == Chunk(ps[0]) + HeaderFlag + rest;
      SplitAfterPreamble(Chunk(ps[0]), rest);
      assert Chunks(ps) == [Chunk(ps[0])] + Chunks(tl);
    }
  }

  /** The chunks of a header list, in order. */
  function Chunks(ps: seq<(string, string)>): (r: seq<string>)
    ensures |r| == |ps|
  {
    seq(|ps|, i requires 0 <= i < |ps| => Chunk(ps[i]))
  }

  /** The header lines of a header list, in order. */
  function Lines(ps: seq<(string, string)>): (r: seq<string>)
    ensures |r| == |ps|
  {
    seq(|ps|, i requires 0 <= i < |ps| => HeaderLine(ps[i]))
  }

  /** Splitting the whole command on `-H` gives an empty preamble followed by the chunks. */
  lemma SplitFlags(ps: seq<(string, string)>)
    requires forall i :: 0 <= i < |ps| ==> Renderable(ps[i])
    ensures Split(CurlFlags(ps), HeaderFlag) == [""] + Chunks(ps)
  {
    if |ps| == 0 {
      assert Chunks(ps) == [];
    } else {
      SplitChunks(ps);
      FlagsUnfold(ps);
      NoFlagWithoutDashH("");
      SplitAfterPreamble("", Chunk(ps[0]) + CurlFlags(ps[1..]));
    }
  }

  lemma FlagsUnfold(ps: seq<(string, string)>)
    requires |ps| > 0
    ensures CurlFlags(ps) == "" + HeaderFlag + (Chunk(ps[0]) + CurlFlags(ps[1..]))
  {
  }

  /** Stripping one chunk leaves its header line. */
  lemma ChunkStrips(p: (string, string))
    requires Renderable(p)
    ensures Strip(Strip(Chunk(p), IsSpace), IsQuote) == HeaderLine(p)
  {
    var line := HeaderLine(p);
    assert line[0] != '\'' by {
      if |p.0| == 0 { assert line[0] == ':'; } else { assert line[0] == p.0[0]; }
    }
    assert line[|line| - 1] != '\'' by {
      if |p.1| == 0 { assert line[|line| - 1] == ' '; } else { assert line[|line| - 1] == p.1[|p.1| - 1]; }
    }
    assert Chunk(p) == " '" + line + "'" + " ";
    StripChunkSpaces(line, " ");
    StripChunkQuotes(line);
  }

  /** After `-H` splitting and stripping, the header lines are exactly the rendered ones. */
  lemma LinesOfFlags(ps: seq<(string, string)>)
    requires forall i :: 0 <= i < |ps| ==> Renderable(ps[i])
    ensures HeaderLines(CurlFlags(ps)) == Lines(ps)
  {
    SplitFlags(ps);
    var cmd := CurlFlags(ps);
    var chunks := Split(cmd, HeaderFlag)[1..];
    assert chunks == Chunks(ps);
    forall i | 0 <= i < |ps| ensures HeaderLines(cmd)[i] == Lines(ps)[i] {
      ChunkStrips(ps[i]);
    }
  }

  /** A line `name: value` of a renderable header parses back to that header. */
  lemma ParseLine(p: (string, string))
    requires Renderable(p)
    ensures ParsePair(HeaderLine(p)) == Some(p)
  {
    var s := HeaderLine(p);
    assert s == p.0 + ":" + (" " + p.1);
    FirstColon(p.0, " " + p.1);
    assert s[..|p.0|] == p.0;
    assert s[|p.0| + 1..] == " " + p.1;
    StripLeadingSpace(p.1);
  }

  /** The first colon of `name:rest` is the one after `name` when `name` has none. */
  lemma FirstColon(name: string, rest: string)
    requires ':' !in name
    ensures FirstIndex(name + ":" + rest, ':') == Some(|name|)
  {
    var s := name + ":" + rest;
    assert s[|name|] == ':';
    assert s[..|name|] == name;
  }

  /** Trimming a value that was written after `: `. */
  lemma StripLeadingSpace(v: string)
    requires v == [] || (!IsSpace(v[0]) && !IsSpace(v[|v| - 1]))
    ensures Strip(" " + v, IsSpace) == v
  {
    if v == [] {
      assert " " + v == " ";
      assert LStrip(" ", IsSpace) == "";
    } else {
      LStripPrefix(" ", v, IsSpace);
      StripKeeps(v, IsSpace);
    }
  }

  /** Whitespace-stripping a chunk ` 'line'` or ` 'line' ` as it appears after `-H`. */
  lemma StripChunkSpaces(line: string, tail: string)
    requires tail == "" || tail == " "
    requires |line| > 0
    ensures Strip(" '" + line + "'" + tail, IsSpace) == "'" + line + "'"
  {
    var q := "'" + line + "'";
    assert " '" + line + "'" + tail == " " + (q + tail);
    LStripPrefix(" ", q + tail, IsSpace);
    RStripSuffix(q, tail, IsSpace);
  }

  /** Quote-stripping `'line'` when `line` neither starts nor ends with a quote. */
  lemma StripChunkQuotes(line: string)
    requires |line| > 0
    requires line[0] != '\'' && line[|line| - 1] != '\''
    ensures Strip("'" + line + "'", IsQuote) == line
  {
    assert "'" + line + "'" == "'" + (line + "'");
    LStripPrefix("'", line + "'", IsQuote);
    RStripSuffix(line, "'", IsQuote);
  }

  /** The rendered lines parse back to the header list itself. */
  lemma {:induction false} ParseLines(ps: seq<(string, string)>)
    requires forall i :: 0 <= i < |ps| ==> Renderable(ps[i])
    ensures ParsePairs(Lines(ps)) == Success(ps)
    decreases |ps|
  {
    if |ps| > 0 {
      ParseLine(ps[0]);
      ParseLines(ps[1..]);
      ParseLinesStep(ps);
    } else {
      assert Lines(ps) == [];
    }
  }

  lemma ParseLinesStep(ps: seq<(string, string)>)
    requires |ps| > 0
    requires ParsePair(HeaderLine(ps[0])) == Some(ps[0])
    requires ParsePairs(Lines(ps[1..])) == Success(ps[1..])
    ensures ParsePairs(Lines(ps)) == Success(ps)
  {
    LinesTail(ps);
    ParsePairsOfLines(Lines(ps), ps);
  }

  lemma LinesTail(ps: seq<(string, string)>)
    requires |ps| > 0
    ensures Lines(ps)[0] == HeaderLine(ps[0])
    ensures Lines(ps)[1..] == Lines(ps[1..])
  {
  }

  /**
   * Round trip: headers written as `-H 'name: value'` flags are read back as
   * the same dictionary, except that `Accept-Encoding` is dropped.
   */
  lemma {:induction false} ProcessRenderedHeaders(ps: seq<(string, string)>)
    requires forall i :: 0 <= i < |ps| ==> Renderable(ps[i])
    ensures ProcessHeaders(CurlFlags(ps)) == Success(Dict(ps) - {DroppedHeader})
  {
    LinesOfFlags(ps);
    ParseLines(ps);
  }

  /** Three flags, the middle one `Accept-Encoding`: only the other two headers survive. */
  lemma ThreeFlags(p: (string, string), q: (string, string), r: (string, string))
    requires Renderable(p) && Renderable(q) && Renderable(r)
    requires p.0 != DroppedHeader && q.0 == DroppedHeader && r.0 != DroppedHeader
    ensures ProcessHeaders(CurlFlags([p, q, r])) == Success(map[p.0 := p.1, r.0 := r.1])
  {
    AllThree(p, q, r);
    ProcessRenderedHeaders([p, q, r]);
    DictThree(p, q, r);
    DropMiddle(p.0, p.1, q.1, r.0, r.1);
  }

  lemma AllThree(p: (string, string), q: (string, string), r: (string, string))
    requires Renderable(p) && Renderable(q) && Renderable(r)
    ensures forall i :: 0 <= i < |[p, q, r]| ==> Renderable([p, q, r][i])
  {
    forall i | 0 <= i < 3 ensures Renderable([p, q, r][i]) {
      if i == 0 {
        assert [p, q, r][i] == p;
      } else if i == 1 {
        assert [p, q, r][i] == q;
      } else {
        assert [p, q, r][i] == r;
      }
    }
  }

  /** A single flag whose name is not `Accept-Encoding` is kept as it is. */
  lemma OneFlag(p: (string, string))
    requires Renderable(p) && p.0 != DroppedHeader
    ensures ProcessHeaders(CurlFlags([p])) == Success(map[p.0 := p.1])
  {
    ProcessRenderedHeaders([p]);
    DictOne(p);
  }

  lemma DictOne(p: (string, string))
    requires p.0 != DroppedHeader
    ensures Dict([p]) - {DroppedHeader} == map[p.0 := p.1]
  {
    assert [p][..0] == [];
    assert Dict([p]) == map[p.0 := p.1];
  }

  /** Spelled out: `-H 'Cookie: a=b' -H 'Accept-Encoding: gzip' -H 'User-Agent: x' ` loses only `Accept-Encoding`. */
  lemma ExampleCommand()
    ensures ProcessHeaders(CurlFlags([("Cookie", "a=b"), ("Accept-Encoding", "gzip"), ("User-Agent", "x")]))
            == Success(map["Cookie" := "a=b", "User-Agent" := "x"])
  {
    RenderableCookie();
    RenderableEncoding();
    RenderableAgent();
    assert |"Cookie"| != |DroppedHeader| && |"User-Agent"| != |DroppedHeader|;
    ThreeFlags(("Cookie", "a=b"), ("Accept-Encoding", "gzip"), ("User-Agent", "x"));
  }

  /**
   * The example headers are renderable. Each is checked in a lemma of its
   * own, which keeps the literals of one header out of the proof of the
   * others.
   */
  lemma RenderableCookie() ensures Renderable(("Cookie", "a=b")) { RenderableLiteral(("Cookie", "a=b")); }
  lemma RenderableEncoding() ensures Renderable(("Accept-Encoding", "gzip")) { RenderableLiteral(("Accept-Encoding", "gzip")); }
  lemma RenderableAgent() ensures Renderable(("User-Agent", "x")) { RenderableLiteral(("User-Agent", "x")); }
  lemma RenderableLower() ensures Renderable(("accept-encoding", "gzip")) { RenderableLiteral(("accept-encoding", "gzip")); }

  /** The name match is exact: a lower-case `accept-encoding` header is kept. */
  lemma LowerCaseEncodingKept()
    ensures ProcessHeaders(CurlFlags([("accept-encoding", "gzip")])) == Success(map["accept-encoding" := "gzip"])
  {
    RenderableLower();
    assert "accept-encoding" != DroppedHeader by { assert "accept-encoding"[0] != DroppedHeader[0]; }
    OneFlag(("accept-encoding", "gzip"));
  }

  /** A header whose name has no colon or quote, whose value is unpadded and unquoted at the end, and where neither contains `-H`. */
  lemma RenderableLiteral(p: (string, string))
    requires forall c :: c in p.0 ==> c != ':' && c != '\''
    requires |p.1| > 0 && !IsSpace(p.1[0]) && !IsSpace(p.1[|p.1| - 1]) && p.1[|p.1| - 1] != '\''
    requires forall k :: 0 <= k < |p.0| - 1 ==> !(p.0[k] == '-' && p.0[k + 1] == 'H')
    requires forall k :: 0 <= k < |p.1| - 1 ==> !(p.1[k] == '-' && p.1[k + 1] == 'H')
    ensures Renderable(p)
  {
    NoFlagWithoutDashH(p.0);
    NoFlagWithoutDashH(p.1);
    if |p.0| > 0 {
      assert p.0[0] in p.0;
    }
  }

  lemma DictThree(p: (string, string), q: (string, string), r: (string, string))
    ensures Dict([p, q, r]) == map[p.0 := p.1, q.0 := q.1, r.0 := r.1]
  {
    assert [p][..0] == [];
    assert Dict([p]) == map[p.0 := p.1];
    assert [p, q][..1] == [p];
    assert Dict([p, q]) == map[p.0 := p.1, q.0 := q.1];
    assert [p, q, r][..2] == [p, q];
  }

  lemma DropMiddle(k1: string, v1: string, v2: string, k3: string, v3: string)
    requires k1 != DroppedHeader && k3 != DroppedHeader
    ensures map[k1 := v1, DroppedHeader := v2, k3 := v3] - {DroppedHeader} == map[k1 := v1, k3 := v3]
  {
  }
}

=== FILE: pathpattern.dfy ===
/**
 * The two regular expressions of the scraper, written as explicit scanners.
 *
 * Both have the shape LIT, digits, `/`, digits, `/`, then everything up to a
 * stop character: the article-path pattern of `get_articles_uris` (literal
 * `/tydenik/`, class `[^"]`) and the id pattern of `save_article` (literal
 * `tydenik/`, class `[^?]`, all three parts captured). A greedy `\d*` is
 * always followed by `/`, which is not a digit, so no backtracking is ever
 * needed, and the trailing class simply runs to the first stop character or
 * to the end of the text.
 */
module Patterns {
  import opened Wrappers
  import opened PyText

  /** What the three parts of a match capture: the year digits, the issue digits and the slug. */
  datatype Groups = Groups(year: string, issue: string, slug: string)

  /** The article-path pattern of an issue page starts with this literal ... */
  const ItemLit: string := "/tydenik/"
  /** ... and its slug runs up to the next double quote. */
  const ItemStop: char := '"'
  /** The id pattern of a link starts with this literal ... */
  const IdLit: string := "tydenik/"
  /** ... and its slug runs up to the query string. */
  const IdStop: char := '?'

  /** Groups a match can capture: two digit runs and a slug free of the stop character. */
  predicate WellFormed(g: Groups, stop: char) {
    AllDigits(g.year) && AllDigits(g.issue) && stop !in g.slug
  }

  /** The text after the literal that a match with these groups spans. */
  function PathOf(g: Groups): (r: string) {
    g.year + "/" + g.issue + "/" + g.slug
  }

  /** The whole text a match with these groups spans. */
  function Render(lit: string, g: Groups): (r: string) {
    lit + PathOf(g)
  }

  /** How many characters greedy `\d*` consumes at the start of `s`. */
  function DigitRun(s: string): (n: nat)
    ensures n <= |s|
    decreases |s|
  {
    if |s| > 0 && IsDigit(s[0]) then 1 + DigitRun(s[1..]) else 0
  }

  /** How many characters greedy `[^stop]*` consumes at the start of `s`. */
  function StopRun(s: string, stop: char): (n: nat)
    ensures n <= |s|
    decreases |s|
  {
    if |s| > 0 && s[0] != stop then 1 + StopRun(s[1..], stop) else 0
  }

  /** Digits and a slash at the start of `s`: the digits and the text after the slash, when a slash follows the digits. */
  function DigitsSlash(s: string): (r: Option<(string, string)>)
  {
    var n := DigitRun(s);
    if n < |s| && s[n] == '/' then Some((s[..n], s[n + 1..])) else None
  }

  /** Digits, slash, digits, slash and a slug up to `stop`, anchored at the start of `s`. */
  function MatchTail(s: string, stop: char): (r: Option<Groups>)
  {
    match DigitsSlash(s)
    case None => None
    case Some(yr) =>
      match DigitsSlash(yr.1)
      case None => None
      case Some(ir) => Some(Groups(yr.0, ir.0, ir.1[..StopRun(ir.1, stop)]))
  }

  /** The whole pattern anchored at the start of `s`: what `re.match` would find there. */
  function MatchAt(s: string, lit: string, stop: char): (r: Option<Groups>)
  {
    if IsPrefix(lit, s) then MatchTail(s[|lit|..], stop) else None
  }

  /**
   * `re.findall`: try the pattern at every position from left to right; after
   * a match, resume right behind it, otherwise one character further on.
   */
  function FindAll(s: string, lit: string, stop: char): (r: seq<Groups>)
    requires |lit| > 0
    decreases |s|
  {
    match MatchAt(s, lit, stop)
    case Some(g) =>
      MatchAtSound(s, lit, stop);
      [g] + FindAll(s[|Render(lit, g)|..], lit, stop)
    case None =>
      if |s| == 0 then [] else FindAll(s[1..], lit, stop)
  }

  /** `re.search`: the leftmost match, if there is one. */
  function FirstMatch(s: string, lit: string, stop: char): (r: Option<Groups>)
    decreases |s|
  {
    match MatchAt(s, lit, stop)
    case Some(g) => Some(g)
    case None => if |s| == 0 then None else FirstMatch(s[1..], lit, stop)
  }

  // ---------------------------------------------------------------- digit and stop runs

  /** Greedy `\d*` stops exactly at the first non-digit. */
  lemma {:induction false} DigitRunSpec(s: string)
    ensures AllDigits(s[..DigitRun(s)])
    ensures DigitRun(s) == |s| || !IsDigit(s[DigitRun(s)])
    decreases |s|
  {
    if |s| > 0 && IsDigit(s[0]) {
      DigitRunSpec(s[1..]);
      var n := DigitRun(s[1..]);
      assert s[..n + 1] == [s[0]] + s[1..][..n];
    }
  }

  /** A run of digits followed by a non-digit is consumed exactly. */
  lemma {:induction false} DigitRunOf(d: string, rest: string)
    requires AllDigits(d)
    requires rest == [] || !IsDigit(rest[0])
    ensures DigitRun(d + rest) == |d|
    decreases |d|
  {
    if |d| == 0 {
      assert d + rest == rest;
    } else {
      assert (d + rest)[1..] == d[1..] + rest;
      DigitRunOf(d[1..], rest);
    }
  }

  /** Greedy `[^stop]*` stops exactly at the first `stop`. */
  lemma {:induction false} StopRunSpec(s: string, stop: char)
    ensures stop !in s[..StopRun(s, stop)]
    ensures StopRun(s, stop) == |s| || s[StopRun(s, stop)] == stop
    decreases |s|
  {
    if |s| > 0 && s[0] != stop {
      StopRunSpec(s[1..], stop);
      var n := StopRun(s[1..], stop);
      assert s[..n + 1] == [s[0]] + s[1..][..n];
    }
  }

  /** A stretch free of `stop` followed by `stop` or the end is consumed exactly. */
  lemma {:induction false} StopRunOf(t: string, rest: string, stop: char)
    requires stop !in t
    requires rest == [] || rest[0] == stop
    ensures StopRun(t + rest, stop) == |t|
    decreases |t|
  {
    if |t| == 0 {
      assert t + rest == rest;
    } else {
      assert (t + rest)[0] == t[0];
      assert (t + rest)[1..] == t[1..] + rest;
      StopRunOf(t[1..], rest, stop);
    }
  }

  // ---------------------------------------------------------------- one anchored match

  /** What the digits-and-slash step finds is a digit run, and the input is that run, a slash and the rest. */
  lemma DigitsSlashSound(s: string)
    requires DigitsSlash(s).Some?
    ensures AllDigits(DigitsSlash(s).value.0)
    ensures s == DigitsSlash(s).value.0 + "/" + DigitsSlash(s).value.1
  {
    DigitRunSpec(s);
    var n := DigitRun(s);
    assert s == s[..n] + "/" + s[n + 1..];
  }

  /** The digits-and-slash step on a digit run followed by a slash captures exactly that run. */
  lemma DigitsSlashOf(d: string, rest: string)
    requires AllDigits(d)
    ensures DigitsSlash(d + "/" + rest) == Some((d, rest))
  {
    var s := d + "/" + rest;
    assert s == d + ("/" + rest);
    DigitRunOf(d, "/" + rest);
    assert s[|d|] == '/';
    assert s[..|d|] == d;
    assert s[|d| + 1..] == rest;
  }

  /** An anchored match after the literal spans its groups and ends at `stop` or at the end of the text. */
  lemma MatchTailSound(s: string, stop: char)
    requires MatchTail(s, stop).Some?
    ensures var g := MatchTail(s, stop).value;
            && WellFormed(g, stop)
            && IsPrefix(PathOf(g), s)
            && (|PathOf(g)| == |s| || s[|PathOf(g)|] == stop)
  {
    var g := MatchTail(s, stop).value;
    var yr := DigitsSlash(s).value;
    var ir := DigitsSlash(yr.1).value;
    DigitsSlashSound(s);
    DigitsSlashSound(yr.1);
    StopRunSpec(ir.1, stop);
    var k := StopRun(ir.1, stop);
    TailSplit(s, yr.0, yr.1, ir.0, ir.1, k);
  }

  /** Re-associating the pieces of a match. */
  lemma TailSplit(s: string, y: string, b: string, i: string, c: string, k: nat)
    requires s == y + "/" + b && b == i + "/" + c && k <= |c|
    ensures IsPrefix(y + "/" + i + "/" + c[..k], s)
    ensures |y + "/" + i + "/" + c[..k]| < |s| ==> s[|y + "/" + i + "/" + c[..k]|] == c[k]
  {
    assert s == y + "/" + i + "/" + c[..k] + c[k..];
  }

  /** A rendered path followed by `stop` or the end is matched, and captures its own groups. */
  lemma MatchTailOf(g: Groups, rest: string, stop: char)
    requires WellFormed(g, stop)
    requires rest == [] || rest[0] == stop
    ensures MatchTail(PathOf(g) + rest, stop) == Some(g)
  {
    var s := PathOf(g) + rest;
    var b := g.issue + "/" + (g.slug + rest);
    assert s == g.year + "/" + b;
    DigitsSlashOf(g.year, b);
    DigitsSlashOf(g.issue, g.slug + rest);
    StopRunOf(g.slug, rest, stop);
    assert (g.slug + rest)[..|g.slug|] == g.slug;
  }

  /**
   * Soundness of an anchored match: the groups are digit runs and a slug free
   * of `stop`, the text starts with their rendering, and the slug stops only
   * at `stop` or at the end of the text (the `[^stop]*` is greedy).
   */
  lemma MatchAtSound(s: string, lit: string, stop: char)
    requires MatchAt(s, lit, stop).Some?
    ensures var g := MatchAt(s, lit, stop).value;
            && WellFormed(g, stop)
            && IsPrefix(Render(lit, g), s)
            && (|Render(lit, g)| == |s| || s[|Render(lit, g)|] == stop)
  {
    var a := s[|lit|..];
    MatchTailSound(a, stop);
    var g := MatchTail(a, stop).value;
    LiteralThenPath(s, lit, PathOf(g));
  }

  /** The text `lit + p + ...` starts with `lit + p`, and the character after is the one after `p`. */
  lemma LiteralThenPath(s: string, lit: string, p: string)
    requires IsPrefix(lit, s) && IsPrefix(p, s[|lit|..])
    ensures IsPrefix(lit + p, s)
    ensures |lit + p| < |s| ==> s[|lit + p|] == s[|lit|..][|p|]
  {
    assert s == lit + s[|lit|..];
    assert s[..|lit + p|] == lit + s[|lit|..][..|p|];
  }

  /**
   * Completeness of an anchored match: a rendering of well-formed groups
   * followed by `stop` or the end of the text is matched with exactly those
   * groups. With `MatchAtSound`, this characterises the anchored match.
   */
  lemma MatchAtOf(lit: string, g: Groups, rest: string, stop: char)
    requires WellFormed(g, stop)
    requires rest == [] || rest[0] == stop
    ensures MatchAt(Render(lit, g) + rest, lit, stop) == Some(g)
  {
    var s := Render(lit, g) + rest;
    assert s == lit + (PathOf(g) + rest);
    assert s[..|lit|] == lit;
    assert s[|lit|..] == PathOf(g) + rest;
    MatchTailOf(g, rest, stop);
  }

  /** No match can start at a character other than the first of the literal. */
  lemma MatchAtMiss(s: string, lit: string, stop: char)
    requires |lit| > 0 && |s| > 0 && s[0] != lit[0]
    ensures MatchAt(s, lit, stop) == None
  {
  }

  // ---------------------------------------------------------------- scanning a whole text

  /** Every group `findall` returns is well formed. */
  lemma {:induction false} FindAllWellFormed(s: string, lit: string, stop: char)
    requires |lit| > 0
    ensures forall i :: 0 <= i < |FindAll(s, lit, stop)| ==> WellFormed(FindAll(s, lit, stop)[i], stop)
    decreases |s|
  {
    match MatchAt(s, lit, stop)
    case Some(g) =>
      MatchAtSound(s, lit, stop);
      FindAllWellFormed(s[|Render(lit, g)|..], lit, stop);
    case None =>
      if |s| > 0 {
        FindAllWellFormed(s[1..], lit, stop);
      }
  }

  /** Text in which the first character of the literal never occurs yields nothing and is skipped. */
  lemma {:induction false} FindAllSkip(j: string, rest: string, lit: string, stop: char)
    requires |lit| > 0 && lit[0] !in j
    ensures FindAll(j + rest, lit, stop) == FindAll(rest, lit, stop)
    decreases |j|
  {
    if |j| == 0 {
      assert j + rest == rest;
    } else {
      var s := j + rest;
      assert s[0] == j[0];
      MatchAtMiss(s, lit, stop);
      assert s[1..] == j[1..] + rest;
      FindAllSkip(j[1..], rest, lit, stop);
    }
  }

  /** A rendered match followed by `stop` or the end is found, and the scan resumes right behind it. */
  lemma FindAllTake(lit: string, g: Groups, rest: string, stop: char)
    requires |lit| > 0 && WellFormed(g, stop)
    requires rest == [] || rest[0] == stop
    ensures FindAll(Render(lit, g) + rest, lit, stop) == [g] + FindAll(rest, lit, stop)
  {
    var s := Render(lit, g) + rest;
    MatchAtOf(lit, g, rest, stop);
    assert s[|Render(lit, g)|..] == rest;
  }

  /** A text in which the literal does not occur has no match. */
  lemma {:induction false} FindAllAbsent(s: string, lit: string, stop: char)
    requires |lit| > 0 && !Contains(s, lit)
    ensures FindAll(s, lit, stop) == []
    decreases |s|
  {
    if |s| > 0 {
      FindAllAbsent(s[1..], lit, stop);
    }
  }

  /** `re.search` finds the first of the matches `re.findall` lists. */
  lemma {:induction false} FirstMatchIsFirst(s: string, lit: string, stop: char)
    requires |lit| > 0
    ensures FirstMatch(s, lit, stop).None? <==> FindAll(s, lit, stop) == []
    ensures FirstMatch(s, lit, stop).Some? ==> FirstMatch(s, lit, stop).value == FindAll(s, lit, stop)[0]
    decreases |s|
  {
    if MatchAt(s, lit, stop).None? && |s| > 0 {
      FirstMatchIsFirst(s[1..], lit, stop);
    }
  }

  // ---------------------------------------------------------------- appending after a stop character

  /** Text that starts with a non-digit does not extend a digit run. */
  lemma {:induction false} DigitRunExtend(a: string, x: string)
    requires |x| > 0 && !IsDigit(x[0])
    ensures DigitRun(a + x) == DigitRun(a)
    decreases |a|
  {
    if |a| == 0 {
      assert a + x == x;
    } else {
      assert (a + x)[0] == a[0];
      assert (a + x)[1..] == a[1..] + x;
      DigitRunExtend(a[1..], x);
    }
  }

  /** Text that starts with `stop` does not extend a run free of `stop`. */
  lemma {:induction false} StopRunExtend(c: string, x: string, stop: char)
    requires |x| > 0 && x[0] == stop
    ensures StopRun(c + x, stop) == StopRun(c, stop)
    decreases |c|
  {
    if |c| == 0 {
      assert c + x == x;
    } else {
      assert (c + x)[0] == c[0];
      assert (c + x)[1..] == c[1..] + x;
      StopRunExtend(c[1..], x, stop);
    }
  }

  /** The digits-and-slash step is not affected by text that starts with a character other than a digit or a slash. */
  lemma DigitsSlashExtend(a: string, x: string)
    requires |x| > 0 && !IsDigit(x[0]) && x[0] != '/'
    ensures DigitsSlash(a + x).Some? <==> DigitsSlash(a).Some?
    ensures DigitsSlash(a).Some? ==>
              DigitsSlash(a + x) == Some((DigitsSlash(a).value.0, DigitsSlash(a).value.1 + x))
  {
    DigitRunExtend(a, x);
    var n := DigitRun(a);
    if n < |a| {
      assert (a + x)[n] == a[n];
      assert (a + x)[..n] == a[..n];
      assert (a + x)[n + 1..] == a[n + 1..] + x;
    } else {
      assert (a + x)[n] == x[0];
    }
  }

  /** An anchored match is not affected by text appended after a `stop` that is neither a digit nor a slash. */
  lemma MatchTailExtend(a: string, x: string, stop: char)
    requires |x| > 0 && x[0] == stop && !IsDigit(stop) && stop != '/'
    ensures MatchTail(a + x, stop) == MatchTail(a, stop)
  {
    DigitsSlashExtend(a, x);
    if DigitsSlash(a).Some? {
      var b := DigitsSlash(a).value.1;
      DigitsSlashExtend(b, x);
      if DigitsSlash(b).Some? {
        var c := DigitsSlash(b).value.1;
        StopRunExtend(c, x, stop);
        var k := StopRun(c, stop);
        assert (c + x)[..k] == c[..k];
      }
    }
  }

  /** The same for the whole pattern, when `stop` does not occur in the literal. */
  lemma MatchAtExtend(s: string, x: string, lit: string, stop: char)
    requires |x| > 0 && x[0] == stop && !IsDigit(stop) && stop != '/' && stop !in lit
    ensures MatchAt(s + x, lit, stop) == MatchAt(s, lit, stop)
  {
    PrefixExtend(lit, s, x);
    if IsPrefix(lit, s) {
      assert (s + x)[|lit|..] == s[|lit|..] + x;
      MatchTailExtend(s[|lit|..], x, stop);
    }
  }

  /** Appending text that starts with a character foreign to `lit` does not change whether a text starts with `lit`. */
  lemma PrefixExtend(lit: string, s: string, x: string)
    requires |x| > 0 && x[0] !in lit
    ensures IsPrefix(lit, s + x) <==> IsPrefix(lit, s)
  {
    if |lit| <= |s| {
      assert (s + x)[..|lit|] == s[..|lit|];
    } else {
      assert lit[|s|] in lit;
      assert (s + x)[|s|] == x[0];
    }
  }

  /**
   * Once a text has a match, appending a `stop` character and anything after
   * it leaves the first match unchanged (for the id pattern: a query string
   * does not change the id).
   */
  lemma {:induction false} FirstMatchExtend(s: string, x: string, lit: string, stop: char)
    requires |x| > 0 && x[0] == stop && !IsDigit(stop) && stop != '/' && stop !in lit
    requires FirstMatch(s, lit, stop).Some?
    ensures FirstMatch(s + x, lit, stop) == FirstMatch(s, lit, stop)
    decreases |s|
  {
    MatchAtExtend(s, x, lit, stop);
    if MatchAt(s, lit, stop).None? {
      assert (s + x)[1..] == s[1..] + x;
      FirstMatchExtend(s[1..], x, lit, stop);
    }
  }

  /**
   * A prefix that cannot start the literal is skipped by the search: it lacks
   * the literal's second character, and the text after it does not start with
   * that character either.
   */
  lemma {:induction false} FirstMatchSkip(j: string, rest: string, lit: string, stop: char)
    requires |lit| >= 2 && lit[1] !in j
    requires rest == [] || rest[0] != lit[1]
    ensures FirstMatch(j + rest, lit, stop) == FirstMatch(rest, lit, stop)
    decreases |j|
  {
    if |j| == 0 {
      assert j + rest == rest;
    } else {
      var s := j + rest;
      assert !IsPrefix(lit, s);
      assert s[1..] == j[1..] + rest;
      FirstMatchSkip(j[1..], rest, lit, stop);
    }
  }

  /** A text that is a rendered match (followed by `stop` or nothing) has that match first. */
  lemma FirstMatchOf(lit: string, g: Groups, rest: string, stop: char)
    requires WellFormed(g, stop)
    requires rest == [] || rest[0] == stop
    ensures FirstMatch(Render(lit, g) + rest, lit, stop) == Some(g)
  {
    MatchAtOf(lit, g, rest, stop);
  }

  // ---------------------------------------------------------------- a page of links

  /** A text listing the given matches, each one behind `junk` and followed by `stop`. */
  function Listing(gs: seq<Groups>, junk: string, lit: string, stop: char): (r: string)
    ensures |gs| > 0 ==> |r| > |junk|
  {
    if |gs| == 0 then junk
    else junk + Render(lit, gs[0]) + [stop] + Listing(gs[1..], junk, lit, stop)
  }

  /**
   * Scanning a listing gives back exactly the listed groups, in order and
   * with repetitions kept, as long as the filler between them cannot start
   * a match.
   */
  lemma {:induction false} FindAllListing(gs: seq<Groups>, junk: string, lit: string, stop: char)
    requires |lit| > 0 && lit[0] !in junk && lit[0] != stop
    requires forall i :: 0 <= i < |gs| ==> WellFormed(gs[i], stop)
    ensures FindAll(Listing(gs, junk, lit, stop), lit, stop) == gs
    decreases |gs|
  {
    if |gs| == 0 {
      assert junk + [] == junk;
      FindAllSkip(junk, [], lit, stop);
    } else {
      var tail := Listing(gs[1..], junk, lit, stop);
      FindAllListing(gs[1..], junk, lit, stop);
      ListingStep(gs[0], junk, tail, lit, stop);
      assert gs == [gs[0]] + gs[1..];
    }
  }

  /** One entry of a listing: filler, a match, its stop character, then the rest. */
  lemma ListingStep(g: Groups, junk: string, tail: string, lit: string, stop: char)
    requires |lit| > 0 && lit[0] !in junk && lit[0] != stop && WellFormed(g, stop)
    ensures FindAll(junk + Render(lit, g) + [stop] + tail, lit, stop) == [g] + FindAll(tail, lit, stop)
  {
    var m := Render(lit, g);
    assert junk + m + [stop] + tail == junk + (m + ([stop] + tail));
    FindAllSkip(junk, m + ([stop] + tail), lit, stop);
    FindAllTake(lit, g, [stop] + tail, stop);
    assert lit[0] !in [stop];
    FindAllSkip([stop], tail, lit, stop);
  }
}

=== FILE: pytext.dfy ===
/**
 * The Python `str` built-ins the scraper relies on, written out with the
 * semantics CPython gives them: `strip`, `lstrip`, `rstrip`, `split`,
 * `join`, `replace`, `index`, `startswith`, `in` and `str(int)`.
 */
module PyText {
  import opened Wrappers

  /** `s.startswith(p)` */
  predicate IsPrefix(p: string, s: string) {
    |p| <= |s| && s[..|p|] == p
  }

  /** `p in s`: `p` occurs somewhere in `s` (the empty string occurs everywhere). */
  predicate Contains(s: string, p: string)
    decreases |s|
  {
    IsPrefix(p, s) || (|s| > 0 && Contains(s[1..], p))
  }

  /** A character `\d` matches, restricted to the ASCII digits 0-9. */
  predicate IsDigit(c: char) {
    '0' <= c <= '9'
  }

  predicate AllDigits(s: string) {
    forall i :: 0 <= i < |s| ==> IsDigit(s[i])
  }

  /** `c == '\''`: the character `strip('\'')` removes. */
  predicate IsQuote(c: char) {
    c == '\''
  }

  /** `c == '/'`: the character `lstrip('/')` and `rstrip('/')` remove. */
  predicate IsSlash(c: char) {
    c == '/'
  }

  /** `c.isspace()`: the characters `str.strip()` removes when given no argument. */
  predicate IsSpace(c: char) {
    || '\t' <= c <= '\r'
    || '\U{001C}' <= c <= ' '
    || c == '\U{0085}' || c == '\U{00A0}' || c == '\U{1680}'
    || '\U{2000}' <= c <= '\U{200A}'
    || c == '\U{2028}' || c == '\U{2029}' || c == '\U{202F}' || c == '\U{205F}' || c == '\U{3000}'
  }

  /** `s.lstrip(chars)`: the longest suffix of `s` that does not start with a character `drop` selects. */
  function LStrip(s: string, drop: char -> bool): (r: string)
    ensures |r| <= |s| && r == s[|s| - |r|..]
    ensures r == [] || !drop(r[0])
    decreases |s|
  {
    if |s| > 0 && drop(s[0]) then LStrip(s[1..], drop) else s
  }

  /** Every character `lstrip` removes is selected by `drop`. */
  lemma {:induction false} LStripDrops(s: string, drop: char -> bool)
    ensures forall i :: 0 <= i < |s| - |LStrip(s, drop)| ==> drop(s[i])
    decreases |s|
  {
    if |s| > 0 && drop(s[0]) {
      LStripDrops(s[1..], drop);
      forall i | 1 <= i < |s| - |LStrip(s, drop)| ensures drop(s[i]) {
        assert s[i] == s[1..][i - 1];
      }
    }
  }

  /** `s.rstrip(chars)`: the longest prefix of `s` that does not end with a character `drop` selects. */
  function RStrip(s: string, drop: char -> bool): (r: string)
    ensures |r| <= |s| && r == s[..|r|]
    ensures r == [] || !drop(r[|r| - 1])
    decreases |s|
  {
    if |s| > 0 && drop(s[|s| - 1]) then RStrip(s[..|s| - 1], drop) else s
  }

  /** Every character `rstrip` removes is selected by `drop`. */
  lemma {:induction false} RStripDrops(s: string, drop: char -> bool)
    ensures forall i :: |RStrip(s, drop)| <= i < |s| ==> drop(s[i])
    decreases |s|
  {
    if |s| > 0 && drop(s[|s| - 1]) {
      RStripDrops(s[..|s| - 1], drop);
      forall i | |RStrip(s, drop)| <= i < |s| - 1 ensures drop(s[i]) {
        assert s[i] == s[..|s| - 1][i];
      }
    }
  }

  /** `s.strip(chars)`: both ends trimmed of the characters `drop` selects. */
  function Strip(s: string, drop: char -> bool): (r: string)
    ensures |r| <= |s|
    ensures r == [] || (!drop(r[0]) && !drop(r[|r| - 1]))
  {
    RStrip(LStrip(s, drop), drop)
  }

  /** `lstrip` removes a leading run of selected characters and stops at the first one outside. */
  lemma {:induction false} LStripPrefix(pad: string, s: string, drop: char -> bool)
    requires forall c :: c in pad ==> drop(c)
    requires |s| > 0 && !drop(s[0])
    ensures LStrip(pad + s, drop) == s
    decreases |pad|
  {
    if |pad| > 0 {
      assert (pad + s)[1..] == pad[1..] + s;
      LStripPrefix(pad[1..], s, drop);
    } else {
      assert pad + s == s;
    }
  }

  /** `rstrip` removes a trailing run of selected characters and stops at the last one outside. */
  lemma {:induction false} RStripSuffix(s: string, pad: string, drop: char -> bool)
    requires forall c :: c in pad ==> drop(c)
    requires |s| > 0 && !drop(s[|s| - 1])
    ensures RStrip(s + pad, drop) == s
    decreases |pad|
  {
    if |pad| > 0 {
      assert (s + pad)[..|s + pad| - 1] == s + pad[..|pad| - 1];
      RStripSuffix(s, pad[..|pad| - 1], drop);
    } else {
      assert s + pad == s;
    }
  }

  /** A string whose two ends are not selected by `drop` is left alone by `strip`. */
  lemma StripKeeps(s: string, drop: char -> bool)
    requires s == [] || (!drop(s[0]) && !drop(s[|s| - 1]))
    ensures Strip(s, drop) == s
  {
  }

  /** Everything `strip` removes is selected by `drop`, and what remains is the contiguous piece of `s` between. */
  lemma StripRemovesOnly(s: string, drop: char -> bool)
    ensures var i, r := |s| - |LStrip(s, drop)|, Strip(s, drop);
            && i + |r| <= |s| && r == s[i..i + |r|]
            && (forall j :: 0 <= j < i ==> drop(s[j]))
            && (forall j :: i + |r| <= j < |s| ==> drop(s[j]))
  {
    StripIsSlice(s, drop);
    LStripDrops(s, drop);
    StripDropsRight(s, drop);
  }

  lemma StripIsSlice(s: string, drop: char -> bool)
    ensures var i, r := |s| - |LStrip(s, drop)|, Strip(s, drop);
            i + |r| <= |s| && r == s[i..i + |r|]
  {
    var l := LStrip(s, drop);
    PrefixOfSuffix(s, |s| - |l|, l, RStrip(l, drop));
  }

  /** A prefix of a suffix is a slice. */
  lemma PrefixOfSuffix(s: string, i: nat, l: string, r: string)
    requires i <= |s| && l == s[i..]
    requires |r| <= |l| && r == l[..|r|]
    ensures i + |r| <= |s| && r == s[i..i + |r|]
  {
  }

  lemma StripDropsRight(s: string, drop: char -> bool)
    ensures var i, r := |s| - |LStrip(s, drop)|, Strip(s, drop);
            forall j :: i + |r| <= j < |s| ==> drop(s[j])
  {
    var l := LStrip(s, drop);
    var i := |s| - |l|;
    var r := RStrip(l, drop);
    RStripDrops(l, drop);
    forall j | i + |r| <= j < |s| ensures drop(s[j]) {
      assert s[j] == l[j - i];
    }
  }

  /**
   * `s.split(sep)`: the pieces between the non-overlapping occurrences of
   * `sep`, found by scanning left to right.
   */
  function Split(s: string, sep: string): (r: seq<string>)
    requires |sep| > 0
    ensures |r| >= 1
    decreases |s|
  {
    if IsPrefix(sep, s) then [""] + Split(s[|sep|..], sep)
    else if |s| == 0 then [""]
    else
      var t := Split(s[1..], sep);
      [[s[0]] + t[0]] + t[1..]
  }

  /** `sep.join(parts)` */
  function Join(parts: seq<string>, sep: string): (r: string) {
    if |parts| == 0 then "" else parts[0] + JoinRest(parts[1..], sep)
  }

  /** Every part preceded by the separator. */
  function JoinRest(parts: seq<string>, sep: string): (r: string) {
    if |parts| == 0 then "" else sep + parts[0] + JoinRest(parts[1..], sep)
  }

  /** Joining a list that starts with `a`. */
  lemma JoinCons(a: string, t: seq<string>, sep: string)
    ensures Join([a] + t, sep) == a + JoinRest(t, sep)
  {
    assert ([a] + t)[1..] == t;
  }

  /** Joining a non-empty list behind a separator. */
  lemma JoinRestNonEmpty(t: seq<string>, sep: string)
    requires |t| >= 1
    ensures JoinRest(t, sep) == sep + Join(t, sep)
  {
    assert sep + t[0] + JoinRest(t[1..], sep) == sep + (t[0] + JoinRest(t[1..], sep));
  }

  /** The two shapes `Split` can return, stated on its first piece. */
  lemma SplitUnfold(s: string, sep: string)
    requires |sep| > 0
    ensures IsPrefix(sep, s) ==> Split(s, sep) == [""] + Split(s[|sep|..], sep)
    ensures !IsPrefix(sep, s) && |s| > 0 ==>
              Split(s, sep) == [[s[0]] + Split(s[1..], sep)[0]] + Split(s[1..], sep)[1..]
  {
  }

  /**
   * No part of a `split` contains the separator, and the first part is a
   * prefix of the text. With `JoinSplit` this pins the parts down.
   */
  lemma {:induction false} SplitPartsLackSep(s: string, sep: string)
    requires |sep| > 0
    ensures IsPrefix(Split(s, sep)[0], s)
    ensures forall i :: 0 <= i < |Split(s, sep)| ==> !Contains(Split(s, sep)[i], sep)
    decreases |s|
  {
    SplitUnfold(s, sep);
    if IsPrefix(sep, s) {
      SplitPartsLackSep(s[|sep|..], sep);
      ShortLacks("", sep);
      var t := Split(s[|sep|..], sep);
      forall i | 1 <= i < |Split(s, sep)| ensures !Contains(Split(s, sep)[i], sep) {
        assert Split(s, sep)[i] == t[i - 1];
      }
    } else if |s| == 0 {
      ShortLacks("", sep);
    } else {
      SplitPartsLackSep(s[1..], sep);
      var t := Split(s[1..], sep);
      var x := [s[0]] + t[0];
      assert x[1..] == t[0];
      assert IsPrefix(x, s) by {
        assert s == [s[0]] + s[1..];
        assert s[..|x|] == [s[0]] + s[1..][..|t[0]|];
      }
      PrefixTrans(sep, x, s);
      forall i | 1 <= i < |Split(s, sep)| ensures !Contains(Split(s, sep)[i], sep) {
        assert Split(s, sep)[i] == t[i];
      }
    }
  }

  /** A prefix of a prefix is a prefix. */
  lemma PrefixTrans(a: string, b: string, s: string)
    ensures IsPrefix(a, b) && IsPrefix(b, s) ==> IsPrefix(a, s)
  {
    if IsPrefix(a, b) && IsPrefix(b, s) {
      assert s[..|a|] == b[..|a|];
    }
  }

  /** Splitting and joining back with the same separator gives the original text. */
  lemma {:induction false} JoinSplit(s: string, sep: string)
    requires |sep| > 0
    ensures Join(Split(s, sep), sep) == s
    decreases |s|
  {
    SplitUnfold(s, sep);
    if IsPrefix(sep, s) {
      var t := Split(s[|sep|..], sep);
      JoinSplit(s[|sep|..], sep);
      JoinCons("", t, sep);
      JoinRestNonEmpty(t, sep);
      assert s == sep + s[|sep|..];
    } else if |s| > 0 {
      var t := Split(s[1..], sep);
      JoinSplit(s[1..], sep);
      JoinCons([s[0]] + t[0], t[1..], sep);
      JoinCons(t[0], t[1..], sep);
      assert t == [t[0]] + t[1..];
      assert s == [s[0]] + s[1..];
    }
  }

  /**
   * `s.replace(pat, repl)`: every non-overlapping occurrence of `pat`, found
   * in one left-to-right pass, is replaced by `repl`.
   */
  function Replace(s: string, pat: string, repl: string): (r: string)
    requires |pat| > 0
    decreases |s|
  {
    if IsPrefix(pat, s) then repl + Replace(s[|pat|..], pat, repl)
    else if |s| == 0 then ""
    else [s[0]] + Replace(s[1..], pat, repl)
  }

  /** `replace` agrees with the split-and-join definition of the same operation. */
  lemma {:induction false} ReplaceIsSplitJoin(s: string, pat: string, repl: string)
    requires |pat| > 0
    ensures Replace(s, pat, repl) == Join(Split(s, pat), repl)
    decreases |s|
  {
    SplitUnfold(s, pat);
    if IsPrefix(pat, s) {
      var t := Split(s[|pat|..], pat);
      ReplaceIsSplitJoin(s[|pat|..], pat, repl);
      JoinCons("", t, repl);
      JoinRestNonEmpty(t, repl);
    } else if |s| > 0 {
      var t := Split(s[1..], pat);
      ReplaceIsSplitJoin(s[1..], pat, repl);
      JoinCons([s[0]] + t[0], t[1..], repl);
      JoinCons(t[0], t[1..], repl);
      assert t == [t[0]] + t[1..];
    }
  }

  /** `replace` introduces no character that is in neither the text nor the replacement. */
  lemma {:induction false} ReplaceChars(s: string, pat: string, repl: string, c: char)
    requires |pat| > 0
    requires c in Replace(s, pat, repl)
    ensures c in s || c in repl
    decreases |s|
  {
    if IsPrefix(pat, s) {
      if c !in repl {
        ReplaceChars(s[|pat|..], pat, repl, c);
      }
    } else if |s| == 0 {
    } else if c != s[0] {
      ReplaceChars(s[1..], pat, repl, c);
    }
  }

  /** With an empty replacement, `replace` only deletes: its result has no character absent from `s`. */
  lemma DeleteKeepsAbsent(s: string, pat: string, c: char)
    requires |pat| > 0
    requires c !in s
    ensures c !in Replace(s, pat, "")
  {
    if c in Replace(s, pat, "") {
      ReplaceChars(s, pat, "", c);
    }
  }

  /** A prefix that cannot start an occurrence of `pat` passes through `replace` unchanged. */
  lemma {:induction false} ReplaceAfterPrefix(p: string, s: string, pat: string, repl: string)
    requires |pat| > 0
    requires pat[0] !in p
    ensures Replace(p + s, pat, repl) == p + Replace(s, pat, repl)
    decreases |p|
  {
    if |p| > 0 {
      assert !IsPrefix(pat, p + s) by { assert (p + s)[0] == p[0]; }
      assert (p + s)[1..] == p[1..] + s;
      ReplaceAfterPrefix(p[1..], s, pat, repl);
    } else {
      assert p + s == s;
    }
  }

  /** A text shorter than `p` does not contain it. */
  lemma {:induction false} ShortLacks(s: string, p: string)
    requires |s| < |p|
    ensures !Contains(s, p)
    decreases |s|
  {
    if |s| > 0 {
      ShortLacks(s[1..], p);
    }
  }

  /** Text with no occurrence of `pat` is left unchanged by `replace`. */
  lemma {:induction false} ReplaceAbsent(s: string, pat: string, repl: string)
    requires |pat| > 0
    requires !Contains(s, pat)
    ensures Replace(s, pat, repl) == s
    decreases |s|
  {
    if |s| > 0 {
      ReplaceAbsent(s[1..], pat, repl);
    }
  }

  /** Replacing one character by another rewrites exactly the positions holding it. */
  lemma {:induction false} ReplaceCharPointwise(s: string, a: char, b: char)
    ensures |Replace(s, [a], [b])| == |s|
    ensures forall i :: 0 <= i < |s| ==> Replace(s, [a], [b])[i] == (if s[i] == a then b else s[i])
    decreases |s|
  {
    if |s| > 0 {
      ReplaceCharPointwise(s[1..], a, b);
      var t := Replace(s[1..], [a], [b]);
      if IsPrefix([a], s) {
        assert Replace(s, [a], [b]) == [b] + t;
      } else {
        assert Replace(s, [a], [b]) == [s[0]] + t;
      }
    }
  }

  /** Two texts `a + sep + b` and `c + sep + d` with no `sep` in `a` or `c` agree only when the pieces do. */
  lemma CutAtFirst(a: string, b: string, c: string, d: string, sep: char)
    requires sep !in a && sep !in c
    requires a + [sep] + b == c + [sep] + d
    ensures a == c && b == d
  {
    var s := a + [sep] + b;
    assert s[|a|] == sep && s[..|a|] == a;
    var t := c + [sep] + d;
    assert t[|c|] == sep && t[..|c|] == c;
    if |a| < |c| {
      assert false;
    } else if |c| < |a| {
      assert false;
    }
    assert s[|a| + 1..] == b;
    assert t[|c| + 1..] == d;
  }

  /** `s.index(c)`: the position of the first `c` in `s`; `None` is Python's ValueError. */
  function FirstIndex(s: string, c: char): (r: Option<nat>)
    ensures r.None? <==> c !in s
    ensures r.Some? ==> r.value < |s| && s[r.value] == c && c !in s[..r.value]
    decreases |s|
  {
    if |s| == 0 then None
    else if s[0] == c then Some(0)
    else match FirstIndex(s[1..], c)
      case None => None
      case Some(i) => assert s[1..][..i] == s[1..i + 1]; Some(i + 1)
  }

  function DigitChar(d: nat): (c: char)
    requires d < 10
    ensures IsDigit(c)
  {
    "0123456789"[d]
  }

  function DigitValue(c: char): (r: nat)
    requires IsDigit(c)
  {
    (c as int) - ('0' as int)
  }

  /** `str(n)` for a non-negative integer: its decimal digits, most significant first. */
  function NatToString(n: nat): (r: string)
    ensures |r| >= 1 && AllDigits(r)
    ensures r[0] == '0' ==> n == 0
    decreases n
  {
    if n < 10 then [DigitChar(n)]
    else NatToString(n / 10) + [DigitChar(n % 10)]
  }

  /** `int(s)` for a string of decimal digits. */
  function ParseDigits(s: string): (r: nat)
    requires AllDigits(s)
    decreases |s|
  {
    if |s| == 0 then 0 else 10 * ParseDigits(s[..|s| - 1]) + DigitValue(s[|s| - 1])
  }

  /** Reading back the decimal digits of `n` gives `n`. */
  lemma {:induction false} ParseNatToString(n: nat)
    ensures ParseDigits(NatToString(n)) == n
    decreases n
  {
    var s := NatToString(n);
    if n < 10 {
      assert s[..0] == [];
      assert DigitValue("0123456789"[n]) == n;
    } else {
      ParseNatToString(n / 10);
      assert s[..|s| - 1] == NatToString(n / 10);
      assert DigitValue("0123456789"[n % 10]) == n % 10;
    }
  }

  /** `str(i)` for any integer: a leading `-` for negative values. */
  function IntToString(i: int): (r: string)
    ensures |r| >= 1
    ensures i >= 0 <==> AllDigits(r)
  {
    if i < 0 then
      var r := "-" + NatToString(-i);
      assert !IsDigit(r[0]);
      r
    else NatToString(i)
  }

  /** Distinct integers have distinct decimal renderings. */
  lemma IntToStringInjective(a: int, b: int)
    requires IntToString(a) == IntToString(b)
    ensures a == b
  {
    if a >= 0 && b >= 0 {
      NatToStringInjective(a, b);
    } else if a < 0 && b < 0 {
      NegativeTail(a);
      NegativeTail(b);
      NatToStringInjective(-a, -b);
    }
  }

  /** Distinct naturals have distinct decimal renderings. */
  lemma NatToStringInjective(a: nat, b: nat)
    requires NatToString(a) == NatToString(b)
    ensures a == b
  {
    ParseNatToString(a);
    ParseNatToString(b);
  }

  /** A negative number is rendered as `-` followed by the digits of its magnitude. */
  lemma NegativeTail(a: int)
    requires a < 0
    ensures IntToString(a)[0] == '-' && IntToString(a)[1..] == NatToString(-a)
  {
  }

  /** `replace` is one left-to-right pass: `&quot;` can be re-formed from the pieces around a removed one. */
  lemma ReplaceSinglePass()
    ensures Replace("&&quot;quot;", "&quot;", "") == "&quot;"
  {
    ReplaceSkipsAmpersand();
    ReplaceRemovesEntity();
  }

  lemma ReplaceSkipsAmpersand()
    ensures Replace("&&quot;quot;", "&quot;", "") == "&" + Replace("&quot;quot;", "&quot;", "")
  {
    var s := "&&quot;quot;";
    assert s[..6] != "&quot;" by { assert s[1] != "&quot;"[1]; }
    assert s[1..] == "&quot;quot;";
  }

  lemma ReplaceRemovesEntity()
    ensures Replace("&quot;quot;", "&quot;", "") == "quot;"
  {
    var s := "&quot;quot;";
    assert IsPrefix("&quot;", s);
    assert s[6..] == "quot;";
    ShortLacks("quot;", "&quot;");
    ReplaceAbsent("quot;", "&quot;", "");
  }
}

=== FILE: scraper.dfy ===
/**
 * `scrape_articles`: collect the article URLs of the requested issues, fetch
 * each article and save it. Index and article pages are given as functions
 * from URL to what the download and the HTML parsing produce.
 */
module Scraper {
  import opened Wrappers
  import opened PyText
  import opened Patterns
  import opened Collect
  import opened Articles

  /** The site the scraper is hard-wired to. */
  const RespektBase: string := "https://www.respekt.cz"

  /** Why a scrape stops early. */
  datatype ScrapeError =
    | EmptyPage(uri: string)     // EmptyArticleException, re-raised by `get_article`
    | SavedNone(uri: string)     // `save_article(None)`: AttributeError on `None.link`
    | Unnamed(link: string)      // IndexError: the link has no id match
    | Unwritable(name: string)   // FileNotFoundError or ValueError: the file name has a `/` or a NUL

  /** How a failed `save_article` surfaces in the loop. */
  function SaveFailure(e: SaveError): (r: ScrapeError)
  {
    match e
    case NoId(link) => Unnamed(link)
    case NoDirectory(name) => Unwritable(name)
    case EmbeddedNul(name) => Unwritable(name)
  }

  /** One turn of the loop as written: the `None` of a failed fetch is passed on to `save_article`. */
  function Step(store: Store, uri: string, page: Option<Selection>): (r: Result<Store, ScrapeError>)
    ensures page.None? ==> r == Failure(SavedNone(uri))
    ensures r.Success? ==> store.Keys <= r.value.Keys
  {
    match GetArticle(uri, page)
    case EmptyArticle => Failure(EmptyPage(uri))
    case NoArticle => Failure(SavedNone(uri))
    case Got(a) =>
      match SaveArticle(store, a)
      case Failure(e) => Failure(SaveFailure(e))
      case Success(s) => Success(s)
  }

  /** The loop of `scrape_articles` as written, over the given URLs in order. */
  function Scrape(store: Store, uris: seq<string>, pages: string -> Option<Selection>): (r: Result<Store, ScrapeError>)
    ensures r.Success? ==> store.Keys <= r.value.Keys
    decreases |uris|
  {
    if |uris| == 0 then Success(store)
    else
      match Step(store, uris[0], pages(uris[0]))
      case Failure(e) => Failure(e)
      case Success(s) => Scrape(s, uris[1..], pages)
  }

  /** One turn of the loop with the evident intent: an article that could not be fetched is skipped. */
  function StepSkipping(store: Store, uri: string, page: Option<Selection>): (r: Result<Store, ScrapeError>)
    ensures page.None? ==> r == Success(store)
    ensures r.Success? ==> store.Keys <= r.value.Keys
  {
    match GetArticle(uri, page)
    case EmptyArticle => Failure(EmptyPage(uri))
    case NoArticle => Success(store)
    case Got(a) =>
      match SaveArticle(store, a)
      case Failure(e) => Failure(SaveFailure(e))
      case Success(s) => Success(s)
  }

  /** The corrected loop: skip what could not be fetched, stop on an empty article. */
  function ScrapeSkipping(store: Store, uris: seq<string>, pages: string -> Option<Selection>): (r: Result<Store, ScrapeError>)
    ensures r.Success? ==> store.Keys <= r.value.Keys
    decreases |uris|
  {
    if |uris| == 0 then Success(store)
    else
      match StepSkipping(store, uris[0], pages(uris[0]))
      case Failure(e) => Failure(e)
      case Success(s) => ScrapeSkipping(s, uris[1..], pages)
  }

  /** `scrape_articles` end to end, as written. */
  function ScrapeArticlesAsWritten(store: Store, indexPages: string -> string, articlePages: string -> Option<Selection>,
                                   yearFrom: int, issueFrom: int, yearTo: int): (r: Result<Store, ScrapeError>)
    ensures r.Success? ==> store.Keys <= r.value.Keys
  {
    Scrape(store, CollectUrls(RespektBase, indexPages, yearFrom, yearTo, issueFrom), articlePages)
  }

  /** `scrape_articles` end to end, with the corrected loop. */
  function ScrapeArticles(store: Store, indexPages: string -> string, articlePages: string -> Option<Selection>,
                          yearFrom: int, issueFrom: int, yearTo: int): (r: Result<Store, ScrapeError>)
    ensures r.Success? ==> store.Keys <= r.value.Keys
  {
    ScrapeSkipping(store, CollectUrls(RespektBase, indexPages, yearFrom, yearTo, issueFrom), articlePages)
  }

  // ---------------------------------------------------------------- the loop as written

  /** As written, one article that cannot be fetched aborts the whole scrape. */
  lemma {:induction false} ScrapeAbortsOnNone(store: Store, uris: seq<string>, pages: string -> Option<Selection>, i: int)
    requires 0 <= i < |uris| && pages(uris[i]).None?
    ensures Scrape(store, uris, pages).Failure?
    decreases |uris|
  {
    if i > 0 {
      match Step(store, uris[0], pages(uris[0]))
      case Failure(_) =>
      case Success(s) =>
        assert uris[1..][i - 1] == uris[i];
        ScrapeAbortsOnNone(s, uris[1..], pages, i - 1);
    }
  }

  /** The smallest witness: one URL whose download fails. As written the scrape crashes; corrected it saves nothing and carries on. */
  lemma NoneCounterexample(store: Store, uri: string)
    ensures Scrape(store, [uri], _ => None) == Failure(SavedNone(uri))
    ensures ScrapeSkipping(store, [uri], _ => None) == Success(store)
  {
    var pages: string -> Option<Selection> := _ => None;
    assert [uri][1..] == [];
    assert ScrapeSkipping(store, [uri][1..], pages) == Success(store);
  }

  // ---------------------------------------------------------------- the corrected loop

  /** When every fetch succeeds the correction changes nothing. */
  lemma {:induction false} SkippingAgrees(store: Store, uris: seq<string>, pages: string -> Option<Selection>)
    requires forall i :: 0 <= i < |uris| ==> pages(uris[i]).Some?
    ensures ScrapeSkipping(store, uris, pages) == Scrape(store, uris, pages)
    decreases |uris|
  {
    if |uris| > 0 {
      assert pages(uris[0]).Some?;
      match Step(store, uris[0], pages(uris[0]))
      case Failure(_) =>
      case Success(s) =>
        forall i | 0 <= i < |uris[1..]| ensures pages(uris[1..][i]).Some? {
          assert uris[1..][i] == uris[i + 1];
        }
        SkippingAgrees(s, uris[1..], pages);
    }
  }

  /** When no fetch succeeds the corrected loop completes and leaves the directory as it was. */
  lemma {:induction false} SkippingAllFailed(store: Store, uris: seq<string>, pages: string -> Option<Selection>)
    requires forall i :: 0 <= i < |uris| ==> pages(uris[i]).None?
    ensures ScrapeSkipping(store, uris, pages) == Success(store)
    decreases |uris|
  {
    if |uris| > 0 {
      assert pages(uris[0]).None?;
      forall i | 0 <= i < |uris[1..]| ensures pages(uris[1..][i]).None? {
        assert uris[1..][i] == uris[i + 1];
      }
      SkippingAllFailed(store, uris[1..], pages);
    }
  }

  /** The files one turn writes: none for a skipped article, one for a fetched one. */
  function Writes(uri: string, page: Option<Selection>): (r: Result<seq<(string, Record)>, ScrapeError>)
  {
    match GetArticle(uri, page)
    case EmptyArticle => Failure(EmptyPage(uri))
    case NoArticle => Success([])
    case Got(a) =>
      match FileName(a.link)
      case None => Failure(Unnamed(a.link))
      case Some(name) => if !Openable(name) then Failure(Unwritable(name)) else Success([(name, RecordOf(a))])
  }

  /** The files a whole run writes, in order; whether the run fails does not depend on the directory. */
  function AllWrites(uris: seq<string>, pages: string -> Option<Selection>): (r: Result<seq<(string, Record)>, ScrapeError>)
    decreases |uris|
  {
    if |uris| == 0 then Success([])
    else
      match Writes(uris[0], pages(uris[0]))
      case Failure(e) => Failure(e)
      case Success(w) =>
        match AllWrites(uris[1..], pages)
        case Failure(e) => Failure(e)
        case Success(ws) => Success(w + ws)
  }

  /** Performing writes in order: a later write to a name replaces an earlier one. */
  function Apply(store: Store, ws: seq<(string, Record)>): (r: Store)
    decreases |ws|
  {
    if |ws| == 0 then store else Apply(store[ws[0].0 := ws[0].1], ws[1..])
  }

  /** Performing writes overrides the directory with the files the writes leave. */
  lemma {:induction false} ApplyOverrides(store: Store, ws: seq<(string, Record)>)
    ensures Apply(store, ws) == store + Apply(map[], ws)
    decreases |ws|
  {
    if |ws| > 0 {
      var k, v := ws[0].0, ws[0].1;
      ApplyOverrides(store[k := v], ws[1..]);
      ApplyOverrides(map[k := v], ws[1..]);
      UpdateThenOverride(store, k, v, Apply(map[], ws[1..]));
    }
  }

  lemma UpdateThenOverride(store: Store, k: string, v: Record, m: Store)
    ensures store[k := v] + m == store + (map[k := v] + m)
  {
  }

  /** Performing the same writes twice leaves what performing them once leaves. */
  lemma ApplyTwice(store: Store, ws: seq<(string, Record)>)
    ensures Apply(Apply(store, ws), ws) == Apply(store, ws)
  {
    var d := Apply(map[], ws);
    ApplyOverrides(store, ws);
    ApplyOverrides(store + d, ws);
    assert (store + d) + d == store + d;
  }

  /** The corrected loop performs exactly the writes of its run, or fails as the run does. */
  lemma {:induction false} ScrapeSkippingIsApply(store: Store, uris: seq<string>, pages: string -> Option<Selection>)
    ensures ScrapeSkipping(store, uris, pages) ==
              match AllWrites(uris, pages)
              case Failure(e) => Failure(e)
              case Success(ws) => Success(Apply(store, ws))
    decreases |uris|
  {
    if |uris| > 0 {
      var step := StepSkipping(store, uris[0], pages(uris[0]));
      if step.Success? {
        ScrapeSkippingIsApply(step.value, uris[1..], pages);
        StepIsApply(store, uris[0], pages(uris[0]));
        var w := Writes(uris[0], pages(uris[0])).value;
        if AllWrites(uris[1..], pages).Success? {
          ApplyConcat(store, w, AllWrites(uris[1..], pages).value);
        }
      } else {
        StepIsApply(store, uris[0], pages(uris[0]));
      }
    }
  }

  /** One corrected turn performs its writes, or fails as they do. */
  lemma StepIsApply(store: Store, uri: string, page: Option<Selection>)
    ensures StepSkipping(store, uri, page).Failure? <==> Writes(uri, page).Failure?
    ensures StepSkipping(store, uri, page).Failure? ==> StepSkipping(store, uri, page).error == Writes(uri, page).error
    ensures StepSkipping(store, uri, page).Success? ==> StepSkipping(store, uri, page).value == Apply(store, Writes(uri, page).value)
  {
    match GetArticle(uri, page)
    case EmptyArticle =>
    case NoArticle =>
    case Got(a) =>
      if FileName(a.link).Some? && Openable(FileName(a.link).value) {
        var w := (FileName(a.link).value, RecordOf(a));
        assert [w][1..] == [];
      }
  }

  /** Performing two runs of writes is performing their concatenation. */
  lemma {:induction false} ApplyConcat(store: Store, a: seq<(string, Record)>, b: seq<(string, Record)>)
    ensures Apply(Apply(store, a), b) == Apply(store, a + b)
    decreases |a|
  {
    if |a| == 0 {
      assert a + b == b;
    } else {
      assert (a + b)[0] == a[0];
      assert (a + b)[1..] == a[1..] + b;
      ApplyConcat(store[a[0].0 := a[0].1], a[1..], b);
    }
  }

  /** Re-running a completed scrape over the same URLs and pages changes nothing. */
  lemma ScrapeSkippingIdempotent(store: Store, uris: seq<string>, pages: string -> Option<Selection>)
    requires ScrapeSkipping(store, uris, pages).Success?
    ensures ScrapeSkipping(ScrapeSkipping(store, uris, pages).value, uris, pages) == ScrapeSkipping(store, uris, pages)
  {
    var once := ScrapeSkipping(store, uris, pages).value;
    ScrapeSkippingIsApply(store, uris, pages);
    ScrapeSkippingIsApply(once, uris, pages);
    ApplyTwice(store, AllWrites(uris, pages).value);
  }

  // ---------------------------------------------------------------- extraction meets saving

  /** The base has no trailing slash, so `rstrip('/')` leaves it alone. */
  lemma BaseUnstripped()
    ensures RStrip(RespektBase, IsSlash) == RespektBase
  {
  }

  /** The base followed by `/` cannot start the id pattern: it has no `y`. */
  lemma BaseHasNoY()
    ensures 'y' !in RespektBase + "/"
  {
  }

  /** Removing `&quot;` from a path leaves the year and issue alone and cleans only the slug. */
  lemma CleanPath(g: Groups)
    requires AllDigits(g.year) && AllDigits(g.issue)
    ensures Replace(PathOf(g), "&quot;", "") == PathOf(Groups(g.year, g.issue, Replace(g.slug, "&quot;", "")))
  {
    var p := g.year + "/" + g.issue + "/";
    assert forall i :: 0 <= i < |g.year| ==> IsDigit(g.year[i]);
    assert forall i :: 0 <= i < |g.issue| ==> IsDigit(g.issue[i]);
    assert '&' !in p;
    assert PathOf(g) == p + g.slug;
    ReplaceAfterPrefix(p, g.slug, "&quot;", "");
  }

  /** The text before the first `?`: what the id pattern's slug group captures. */
  function BeforeQuery(s: string): (r: string)
    ensures '?' !in r
    ensures r == s || (|r| < |s| && s[|r|] == '?' && s[..|r|] == r)
  {
    StopRunSpec(s, '?');
    s[..StopRun(s, '?')]
  }

  /** The article URL of a match is the base, `/`, and the id pattern's literal followed by the cleaned path. */
  lemma ArticleUrlShape(g: Groups)
    requires AllDigits(g.year) && AllDigits(g.issue)
    ensures ArticleUrl(RespektBase, g)
            == (RespektBase + "/") + Render(IdLit, Groups(g.year, g.issue, Replace(g.slug, "&quot;", "")))
  {
    BaseUnstripped();
    CleanPath(g);
  }

  /** Behind any prefix without a `y`, the id pattern captures the slug up to its first `?`. */
  lemma LinkFileName(pre: string, year: string, issue: string, slug: string)
    requires 'y' !in pre && AllDigits(year) && AllDigits(issue)
    ensures FileName(pre + Render(IdLit, Groups(year, issue, slug)))
            == Some(year + "-" + issue + "-" + BeforeQuery(slug) + ".json")
  {
    var t := BeforeQuery(slug);
    var link0 := pre + Render(IdLit, Groups(year, issue, t));
    FileNameOfLink(pre, Groups(year, issue, t));
    if t != slug {
      var q := slug[|t| + 1..];
      assert slug == t + "?" + q;
      assert pre + Render(IdLit, Groups(year, issue, slug)) == link0 + "?" + q;
      FileNameIgnoresQuery(link0, q);
    }
  }

  /**
   * Round trip: the URL extracted for the path `/tydenik/Y/I/S` of an index
   * page of the site is saved as `Y-I-S'.json`, where `S'` is `S` with
   * `&quot;` removed and cut at its first `?`.
   */
  lemma ArticleUrlFileName(g: Groups)
    requires AllDigits(g.year) && AllDigits(g.issue)
    ensures FileName(ArticleUrl(RespektBase, g))
            == Some(g.year + "-" + g.issue + "-" + BeforeQuery(Replace(g.slug, "&quot;", "")) + ".json")
  {
    ArticleUrlShape(g);
    BaseHasNoY();
    LinkFileName(RespektBase + "/", g.year, g.issue, Replace(g.slug, "&quot;", ""));
  }

  /** When the slug has neither `?` nor `&quot;`, the file name is exactly `Y-I-S.json`. */
  lemma ArticleUrlFileNamePlain(g: Groups)
    requires AllDigits(g.year) && AllDigits(g.issue) && '?' !in g.slug && !Contains(g.slug, "&quot;")
    ensures FileName(ArticleUrl(RespektBase, g)) == Some(g.year + "-" + g.issue + "-" + g.slug + ".json")
  {
    ArticleUrlFileName(g);
    ReplaceAbsent(g.slug, "&quot;", "");
  }

  /**
   * Saving the article behind a URL extracted for `/tydenik/Y/I/S` fails
   * exactly when the cleaned slug, cut at its first `?`, holds a `/`: the
   * file name then names a sub-directory that does not exist.
   */
  lemma ArticleUrlWritable(g: Groups)
    requires AllDigits(g.year) && AllDigits(g.issue)
    ensures FileName(ArticleUrl(RespektBase, g)).Some?
    ensures Openable(FileName(ArticleUrl(RespektBase, g)).value) <==> Openable(BeforeQuery(Replace(g.slug, "&quot;", "")))
  {
    ArticleUrlFileName(g);
    NameChars(g.year, g.issue, BeforeQuery(Replace(g.slug, "&quot;", "")));
  }

  /** Saving the article of a link of the site whose slug holds a `/` but no NUL before any `?` fails for want of a directory. */
  lemma SlugSlashUnwritable(store: Store, a: Article, year: string, issue: string, slug: string)
    requires AllDigits(year) && AllDigits(issue) && '/' in BeforeQuery(slug) && '\0' !in BeforeQuery(slug)
    requires a.link == (RespektBase + "/") + Render(IdLit, Groups(year, issue, slug))
    ensures SaveArticle(store, a) == Failure(NoDirectory(year + "-" + issue + "-" + BeforeQuery(slug) + ".json"))
  {
    BaseHasNoY();
    LinkFileName(RespektBase + "/", year, issue, slug);
    NameChars(year, issue, BeforeQuery(slug));
  }

  /** A trailing slash in the slug: `/tydenik/2019/5/slug/` is named `2019-5-slug/.json`, which cannot be opened. */
  lemma SlashSlugExample(store: Store, a: Article)
    requires a.link == (RespektBase + "/") + "tydenik/2019/5/" + "slug/"
    ensures SaveArticle(store, a) == Failure(NoDirectory("2019-5-" + "slug/" + ".json"))
  {
    var g := SlashSlugLink(RespektBase + "/");
    SlugSlashUnwritable(store, a, g.year, g.issue, g.slug);
  }

  /** The link of the example, split into the groups of the id pattern. */
  lemma SlashSlugLink(pre: string) returns (g: Groups)
    ensures AllDigits(g.year) && AllDigits(g.issue) && '/' in BeforeQuery(g.slug) && '\0' !in BeforeQuery(g.slug)
    ensures g.slug == "slug/"
    ensures pre + "tydenik/2019/5/" + g.slug == pre + Render(IdLit, g)
    ensures g.year + "-" + g.issue + "-" + BeforeQuery(g.slug) + ".json" == "2019-5-" + g.slug + ".json"
  {
    g := Groups("2019", "5", "slug/");
    BeforeQueryPlain(g.slug);
    ExampleRender(pre, g.slug);
    ExampleName(g.slug);
  }

  /** The path of an example link, for a slug of issue 5 of 2019. */
  lemma ExampleRender(pre: string, slug: string)
    ensures pre + Render(IdLit, Groups("2019", "5", slug)) == pre + "tydenik/2019/5/" + slug
    ensures AllDigits("2019") && AllDigits("5")
  {
  }

  /** The file name of an example link, for a slug of issue 5 of 2019. */
  lemma ExampleName(slug: string)
    ensures "2019" + "-" + "5" + "-" + slug + ".json" == "2019-5-" + slug + ".json"
  {
  }

  /** A text without `?` is captured whole. */
  lemma BeforeQueryPlain(s: string)
    requires '?' !in s
    ensures BeforeQuery(s) == s
  {
  }

  /** Saving the article of a link of the site whose slug holds a NUL before any `?` fails: `open` refuses the name, whatever else it holds. */
  lemma SlugNulUnwritable(store: Store, a: Article, year: string, issue: string, slug: string)
    requires AllDigits(year) && AllDigits(issue) && '\0' in BeforeQuery(slug)
    requires a.link == (RespektBase + "/") + Render(IdLit, Groups(year, issue, slug))
    ensures SaveArticle(store, a) == Failure(EmbeddedNul(year + "-" + issue + "-" + BeforeQuery(slug) + ".json"))
  {
    BaseHasNoY();
    LinkFileName(RespektBase + "/", year, issue, slug);
    NameChars(year, issue, BeforeQuery(slug));
  }

  /** Digits, dashes and `.json` hold neither `/` nor NUL: those can only come from the slug. */
  lemma NameChars(year: string, issue: string, t: string)
    requires AllDigits(year) && AllDigits(issue)
    ensures '/' in year + "-" + issue + "-" + t + ".json" <==> '/' in t
    ensures '\0' in year + "-" + issue + "-" + t + ".json" <==> '\0' in t
  {
    assert forall i :: 0 <= i < |year| ==> IsDigit(year[i]);
    assert forall i :: 0 <= i < |issue| ==> IsDigit(issue[i]);
  }

  /** A NUL in the slug: `/tydenik/2019/5/a<NUL>b` is named `2019-5-a<NUL>b.json`, which `open` refuses. */
  lemma NulSlugExample(store: Store, a: Article)
    requires a.link == (RespektBase + "/") + "tydenik/2019/5/" + "a\0b"
    ensures SaveArticle(store, a) == Failure(EmbeddedNul("2019-5-" + "a\0b" + ".json"))
  {
    var g := NulSlugLink(RespektBase + "/");
    SlugNulUnwritable(store, a, g.year, g.issue, g.slug);
  }

  /** The link of the NUL example, split into the groups of the id pattern. */
  lemma NulSlugLink(pre: string) returns (g: Groups)
    ensures AllDigits(g.year) && AllDigits(g.issue) && '/' !in BeforeQuery(g.slug) && '\0' in BeforeQuery(g.slug)
    ensures g.slug == "a\0b"
    ensures pre + "tydenik/2019/5/" + g.slug == pre + Render(IdLit, g)
    ensures g.year + "-" + g.issue + "-" + BeforeQuery(g.slug) + ".json" == "2019-5-" + g.slug + ".json"
  {
    g := Groups("2019", "5", "a\0b");
    BeforeQueryPlain(g.slug);
    ExampleRender(pre, g.slug);
    ExampleName(g.slug);
  }

  /** Every URL extracted from an index page of the site has a file name: saving it never fails for want of an id. */
  lemma ExtractedUrlsNamed(page: string, i: int)
    requires 0 <= i < |ExtractUrls(RespektBase, page)|
    ensures FileName(ExtractUrls(RespektBase, page)[i]).Some?
  {
    ExtractUrlsAt(RespektBase, page, i);
    FindAllWellFormed(page, ItemLit, ItemStop);
    ArticleUrlFileName(FindAll(page, ItemLit, ItemStop)[i]);
  }

  /** Every gathered URL is one that some index page yielded. */
  lemma GatheredFrom(base: string, indexPages: string -> string, cs: seq<Coord>, u: string)
      returns (page: string, i: int)
    requires u in Gather(base, indexPages, cs)
    ensures 0 <= i < |ExtractUrls(base, page)| && ExtractUrls(base, page)[i] == u
  {
    GatherMembership(base, indexPages, cs, u);
    var k :| 0 <= k < |cs| && u in ExtractUrls(base, indexPages(IndexUrl(base, cs[k])));
    page := indexPages(IndexUrl(base, cs[k]));
    i := Position(ExtractUrls(base, page), u);
  }

  /** Where an element of a sequence sits. */
  lemma Position<T>(s: seq<T>, x: T) returns (i: int)
    requires x in s
    ensures 0 <= i < |s| && s[i] == x
  {
    i :| 0 <= i < |s| && s[i] == x;
  }

  /** Every collected URL has a file name. */
  lemma CollectedUrlsNamed(indexPages: string -> string, yearFrom: int, yearTo: int, skipIssues: int, u: string)
    requires u in CollectUrls(RespektBase, indexPages, yearFrom, yearTo, skipIssues)
    ensures FileName(u).Some?
  {
    var page, i := GatheredFrom(RespektBase, indexPages, Coordinates(yearFrom, yearTo, skipIssues), u);
    ExtractedUrlsNamed(page, i);
  }

  /** Over URLs that all have file names, the corrected loop stops only on an empty article or on a file name `open` refuses. */
  lemma {:induction false} SkippingStops(store: Store, uris: seq<string>, pages: string -> Option<Selection>)
    requires forall i :: 0 <= i < |uris| ==> FileName(uris[i]).Some?
    requires ScrapeSkipping(store, uris, pages).Failure?
    ensures var e := ScrapeSkipping(store, uris, pages).error; e.EmptyPage? || (e.Unwritable? && !Openable(e.name))
    decreases |uris|
  {
    var step := StepSkipping(store, uris[0], pages(uris[0]));
    assert FileName(uris[0]).Some?;
    if step.Success? {
      forall i | 0 <= i < |uris[1..]| ensures FileName(uris[1..][i]).Some? {
        assert uris[1..][i] == uris[i + 1];
      }
      SkippingStops(step.value, uris[1..], pages);
    }
  }

  /** Over URLs that all have file names, the loop as written stops on an empty article, a failed fetch, or a file name `open` refuses. */
  lemma {:induction false} AsWrittenStops(store: Store, uris: seq<string>, pages: string -> Option<Selection>)
    requires forall i :: 0 <= i < |uris| ==> FileName(uris[i]).Some?
    requires Scrape(store, uris, pages).Failure?
    ensures var e := Scrape(store, uris, pages).error; e.EmptyPage? || e.SavedNone? || (e.Unwritable? && !Openable(e.name))
    decreases |uris|
  {
    var step := Step(store, uris[0], pages(uris[0]));
    assert FileName(uris[0]).Some?;
    if step.Success? {
      forall i | 0 <= i < |uris[1..]| ensures FileName(uris[1..][i]).Some? {
        assert uris[1..][i] == uris[i + 1];
      }
      AsWrittenStops(step.value, uris[1..], pages);
    }
  }

  /** Every URL the scraper collects from the site has a file name. */
  lemma CollectedAllNamed(indexPages: string -> string, yearFrom: int, yearTo: int, skipIssues: int)
    ensures var uris := CollectUrls(RespektBase, indexPages, yearFrom, yearTo, skipIssues);
            forall i :: 0 <= i < |uris| ==> FileName(uris[i]).Some?
  {
    var uris := CollectUrls(RespektBase, indexPages, yearFrom, yearTo, skipIssues);
    forall i | 0 <= i < |uris| ensures FileName(uris[i]).Some? {
      CollectedUrlsNamed(indexPages, yearFrom, yearTo, skipIssues, uris[i]);
    }
  }

  /** A full scrape of the site with the corrected loop fails only on an empty article page or a slug with a `/` or NUL, never for want of an id. */
  lemma ScrapeArticlesStops(store: Store, indexPages: string -> string, articlePages: string -> Option<Selection>,
                            yearFrom: int, issueFrom: int, yearTo: int)
    requires ScrapeArticles(store, indexPages, articlePages, yearFrom, issueFrom, yearTo).Failure?
    ensures var e := ScrapeArticles(store, indexPages, articlePages, yearFrom, issueFrom, yearTo).error;
            e.EmptyPage? || (e.Unwritable? && !Openable(e.name))
  {
    CollectedAllNamed(indexPages, yearFrom, yearTo, issueFrom);
    SkippingStops(store, CollectUrls(RespektBase, indexPages, yearFrom, yearTo, issueFrom), articlePages);
  }

  /** A full scrape of the site as written fails on an empty article page, a failed fetch or a slug with a `/` or NUL, never for want of an id. */
  lemma ScrapeArticlesAsWrittenStops(store: Store, indexPages: string -> string, articlePages: string -> Option<Selection>,
                                     yearFrom: int, issueFrom: int, yearTo: int)
    requires ScrapeArticlesAsWritten(store, indexPages, articlePages, yearFrom, issueFrom, yearTo).Failure?
    ensures var e := ScrapeArticlesAsWritten(store, indexPages, articlePages, yearFrom, issueFrom, yearTo).error;
            e.EmptyPage? || e.SavedNone? || (e.Unwritable? && !Openable(e.name))
  {
    CollectedAllNamed(indexPages, yearFrom, yearTo, issueFrom);
    AsWrittenStops(store, CollectUrls(RespektBase, indexPages, yearFrom, yearTo, issueFrom), articlePages);
  }
}

=== FILE: wrappers.dfy ===
/** Failure-carrying values: the model's stand-in for Python's `None` returns and raised exceptions. */
module Wrappers {

  /** A value that may be absent, like a Python function that can return `None`. */
  datatype Option<+T> = None | Some(value: T)

  /** A computation that either produced a value or raised an error. */
  datatype Result<+T, +E> = Success(value: T) | Failure(error: E)
}
